=== FILE: README.md ===
# kube-rpg races service, modelled in Dafny

This project models the `races` service of kube-rpg (`services/races`). The
service pulls race records from a GraphQL API and stores them in PostgreSQL,
in three tables: races, languages, and the links between them. It also
serves those records over HTTP. Four Go files make up the modelled core:

- `db.go` holds the store operations. These are `write_race`,
  `truncate_races`, the bulk sync `write_data` with its two phases
  `populate_races` and `populate_languages`, `read_race` and `add_lang`.
- `server.go` holds the HTTP handlers `list_races`, `show_race`,
  `add_language`, `add_race` and `delete_races`, and the JSON view
  `raceExport`.
- `main.go` holds `env`, the `Race` record and its `String` rendering, and
  `populate_from_api`.
- `client.go` holds the wire record `raceData`, its conversion to a `Race`,
  and the per-record mapping of `collect_from_api`.

## How the store is modelled

The database is an oracle, `Store.Oracle`. It is a function from a statement
and its position in the session to `Pass` or `Fail(error)`. Every store
operation is written in the same shape as the Go code: one `if err != nil`
per statement, stopping at the first failure. The operation returns a
`Store.Run`, which holds the trace of statements issued and the error
returned.

Each of these code-shaped functions has a partner: a flat list of
statements, called a plan, such as `Store.RacePlan`, `Store.LanguagePlan` or
`Store.WriteRacePlan`. `Store.RunPlan` is the reference semantics. It runs a
plan up to and including the first statement that fails, and returns that
statement's error. The `*IsPlan` lemmas of `StoreProofs` prove, for every
oracle and every input, that each code-shaped function equals `RunPlan` of
its plan, followed by the statements whose answers it ignores. Those
statements are the COPY close after the race phase, and the Rollback or
Commit that ends `write_data`. `write_race` adds one Rollback after any
failure that follows Begin, and its Commit is part of its plan, so a failed
commit is returned. The remaining lemmas build on those equalities:

- what a successful sync issues;
- how a failed sync ends;
- which errors are swallowed;
- how many statements the language phase issues.

The HTTP handlers are functions from a decoded request and the store's
answers to a `Reply`, which holds a status code and a body. JSON decoding is
an input: a decoded value, end of input, or a malformed body.

`populate_languages` declares `seen_lang` but never assigns to it, so the
guard `!seen_lang[lang]` always holds. Every occurrence of a language
therefore issues its insert-or-ignore statement again. The model follows the
code as written: `Store.SeenLang` is the empty map, and
`StoreProofs.LanguageInsertCount` counts one insert per occurrence. The
name `seen_lang` and its guard suggest a per-batch deduplication, but the
code never performs it. In `write_data`, errors at the end of the
transaction are not returned either. A failed `Rollback` there is only
logged. A failed `Commit` and a failed close of the COPY statement are
logged, and `nil` is returned. `StoreProofs.WriteDataIgnoresSwallowed`
states this. `write_race` differs: a failed Commit is returned as
`(0, err)`, and its Rollbacks' results are dropped without being logged.

## Model

| member | source | states |
|---|---|---|
| Text.Itoa | services/races/main.go:68 | `strconv.Itoa`: the canonical decimal form. Every character is a digit or '-', with a leading '-' exactly for a negative number and no leading zero: zero prints as "0", and a negative number's first digit is non-zero. `Text.AtoiItoa` states that it reads back. |
| Text.Atoi | services/races/server.go:162 | A segment that parses starts with a sign or a digit, and the value it parses to lies in the int64 range. |
| Text.AtoiDigits | services/races/server.go:162 | Any non-empty digit string, with an optional '+' or '-', parses to the digits' value (negated after '-') when that fits in int64, and is rejected otherwise. Leading zeros, '+' and "-0" are accepted. |
| Text.AtoiRejects | services/races/server.go:162 | A string with a non-digit after the optional sign is rejected, and so are the empty string and a lone sign. |
| Text.AtoiBlank | services/races/server.go:162 | The empty string and a lone '+' or '-' are rejected. |
| Text.AtoiItoa | services/races/main.go:68 | Parsing the decimal text of any int64 gives back the same number, so a rendered speed or id reads back unchanged. |
| Text.Split | services/races/server.go:156 | Splitting a path on '/' yields at least one piece, and no piece contains a '/'. |
| Text.JoinSplit | services/races/server.go:156 | Joining the pieces of a split with the separator restores the original path. |
| Text.SplitJoin | services/races/server.go:156 | Splitting the join of separator-free pieces (at least one) gives back exactly those pieces. |
| Text.Join | services/races/main.go:72 | `strings.Join`: the elements with the separator between neighbours. `Text.JoinSplit` and `Text.SplitJoin` state that it inverts `Text.Split`. |
| Text.Format | services/races/main.go:73 | `fmt.Sprintf` for the `%s` and `%d` verbs. `Text.FormatLiteral` and `Text.FormatVerb` state how literal text and verbs render. |
| Text.FormatLiteral | services/races/main.go:73 | Literal text without '%' is copied verbatim and consumes no argument, so the template's fixed parts appear as written. |
| Races.ToInt32 | services/races/server.go:260 | The Go conversion `int32(x)` leaves a value in range unchanged, and otherwise keeps it congruent modulo 2^32. |
| Races.RaceString | services/races/main.go:63-74 | `Race.String`. `Races.RaceStringLayout` and `Races.RaceStringFields` state its text. |
| Races.RaceStringLayout | services/races/main.go:63-74 | `Race.String` is the template's literal text with name, id, size, speed and the ", "-joined languages in order between its parts. |
| Races.RaceStringFields | services/races/main.go:64-71 | The size field shows "<NULL>" for a null size and the size otherwise. The speed field shows "<NULL>" exactly when the speed is null, and otherwise parses back to the speed. |
| Client.LanguageNames | services/races/client.go:22-25 | One name per wire language, in the same order. |
| Client.Convert | services/races/client.go:21-33 | The converted race is unsaved (id 0) and keeps the name and the language names. Size and speed are always present, even when the wire gave "" or 0. |
| Client.ConvertAll | services/races/client.go:50-57 | One converted race per record, each the conversion of the record at the same index. |
| Client.CollectFromApi | services/races/client.go:38-58 | A client error is returned unchanged with no data. Otherwise the data is the conversion of every record, in response order. |
| Store.PopulateRaces | services/races/db.go:160-184 | `populate_races`. `StoreProofs.PopulateRacesIsPlan` states its run. |
| Store.PopulateLanguages | services/races/db.go:193-232 | `populate_languages`. Its run, stopping point and counts are stated by `StoreProofs.PopulateLanguagesIsPlan`, `PopulateLanguagesStops`, `LanguageInsertCount` and `LanguageInsertsCoverBatch`. |
| Store.WriteData | services/races/db.go:128-157 | `write_data`. Stated by `StoreProofs.WriteDataIsPlan`, `WriteDataSucceeds`, `WriteDataFails`, `WriteDataRacePhaseFailure` and `WriteDataIgnoresSwallowed`. |
| Store.WriteRace | services/races/db.go:54-91 | `write_race`. Stated by `StoreProofs.WriteRaceIsPlan` and `WriteRaceResult`. |
| Store.ReadRace | services/races/db.go:262-273 | `read_race`: `Store.QueryRow` with the zero race, so its three-way result is stated there. |
| Store.AddLang | services/races/db.go:279-290 | `add_lang`: `Store.QueryRow` with id 0. A row means "created", no row means "already present", and anything else is a failure. |
| Store.CopyOps | services/races/db.go:167-173 | The race phase sends one COPY row per race, in batch order, carrying that race's name, size and speed. |
| Store.PairOps | services/races/db.go:207-220 | For one race, each language issues its language insert and then its link, in language order. |
| Store.Occurrences | services/races/db.go:207-208 | The batch's (race, language) occurrences number exactly the total of the races' language counts, duplicates included. |
| Store.RaceLangOps | services/races/db.go:72-79 | `write_race` issues one language statement per language of the race, in order, each carrying the new id. |
| Store.QueryRow | services/races/db.go:262-290 | A single-row read is a three-way result. A found row carries no error. A missing row (`ErrNoRows`) is "not found" with no error. Any other failure is "not found" and carries that failure. |
| Store.TruncateRaces | services/races/db.go:96-102 | `truncate_races` returns no error, whatever the store answered. |
| StoreProofs.RunPlanPasses | services/races/db.go:128-157 | A plan runs without error exactly when every statement in it passes at its position. |
| StoreProofs.PopulateRacesIsPlan | services/races/db.go:160-184 | The race phase issues PREPARE, the rows and the flush, stopping at the first failure. On success it also closes the statement and reports no error. |
| StoreProofs.PopulateLanguagesIsPlan | services/races/db.go:193-232 | The language phase is the run of its plan: two prepares, an insert and a link per occurrence, and two closes. |
| StoreProofs.PopulateLanguagesStops | services/races/db.go:211-218 | The language phase's error is that of the first failing statement, and nothing after it is issued. |
| StoreProofs.OccurrenceOpsShape | services/races/db.go:207-220 | The occurrence statements alternate: a language insert then its link, for each occurrence of the batch in order. |
| StoreProofs.LanguageInsertCount | services/races/db.go:205-216 | Because the seen map is never assigned, the phase issues one language insert and one link per occurrence, not one insert per distinct language. |
| StoreProofs.LanguageInsertsCoverBatch | services/races/db.go:205-216 | A language is inserted exactly when some race of the batch names it. |
| StoreProofs.WriteDataIsPlan | services/races/db.go:128-157 | `write_data` is Begin, the race phase, the COPY close, the language phase and Commit. It is rolled back at the first phase failure. |
| StoreProofs.WriteDataSucceeds | services/races/db.go:128-157 | The sync returns no error exactly when Begin and every statement of both phases pass. It then issues exactly the full sync plan, Commit included. |
| StoreProofs.WriteDataFails | services/races/db.go:128-147 | A failed sync starts with Begin and never commits. If Begin failed, nothing else is issued. Otherwise it ends with one Rollback after a prefix of the plan, and returns the failing statement's error. |
| StoreProofs.WriteDataRacePhaseFailure | services/races/db.go:135-140 | A failure in the race phase returns before any language statement is issued, and the statement that failed belongs to the race phase. |
| StoreProofs.WriteDataIgnoresSwallowed | services/races/db.go:135-156 | Two stores that differ only on the COPY close, Rollback and Commit give the same error from `write_data`. |
| StoreProofs.RaceStatementsIsPlan | services/races/db.go:60-89 | After Begin, `write_race` issues the insert, prepare, one statement per language, the close and Commit, stopping at the first failure. |
| StoreProofs.WriteRaceIsPlan | services/races/db.go:54-91 | `write_race` is its plan run to the first failure, with a rollback after any failure except Begin's. |
| StoreProofs.WriteRaceResult | services/races/db.go:54-91 | `write_race` returns the new id with no error exactly when its whole plan passes, and the trace is then that plan. Any failure returns id 0 and the failing error. A failure after Begin ends with one Rollback. |
| Server.Export | services/races/server.go:50-61 | The JSON view keeps id, name and languages. A null size or speed becomes absent, and a present one becomes its value. |
| Server.ExportRaces | services/races/server.go:63-69 | One view per race, in order. |
| Server.PayloadToRace | services/races/server.go:255-261 | A payload becomes an unsaved race with the payload's name, languages and size, and the speed converted to int32. |
| Server.ExportPayload | services/races/server.go:50-61 | Exporting the race made from a payload whose speed fits in int32 gives back the payload, with id 0. |
| Server.PayloadExport | services/races/server.go:255-261 | Making a race from the view of a race gives back the race, with id 0. |
| Server.PayloadSpeedWraps | services/races/server.go:260 | Every payload speed outside the int32 range is stored as a different value congruent to it modulo 2^32, so exporting the stored race does not give back the payload. |
| Server.ListRaces | services/races/server.go:89-119 | A read failure gives 500 with the error text, an empty list gives 204 with no body, and otherwise 200 with every race's view in order. |
| Server.ParseRacePath | services/races/server.go:156-167 | The path check and id parse of `show_race`. Stated by `Server.ParseRacePathShape`, `ParseRacePathOf` and `ParseRacePathItoa`. |
| Server.ShowRace | services/races/server.go:155-193 | `show_race`. Stated by `Server.ShowRaceStatus` and `ShowRaceSkipsStore`. |
| Server.ParseRacePathShape | services/races/server.go:156-167 | An accepted path is `a + "/race/" + d`, with no '/' in `a` or `d`, and `d` parses to the id. The converse is `Server.ParseRacePathOf`. |
| Server.ParseRacePathOf | services/races/server.go:156-167 | "/race/" followed by a decimal id in the int64 range is accepted as that id. |
| Server.ParseRacePathItoa | services/races/server.go:156-167 | For every int64 id, the path "/race/<id>" parses to that id. |
| Server.ShowRaceStatus | services/races/server.go:155-193 | `show_race` replies only 200 or 404. It replies 200, with the race's view, exactly when the path parses and the read finds the race. A store error also gives 404, because `ok` is tested before `err`, so the 500 branch is never taken. |
| Server.ShowRaceSkipsStore | services/races/server.go:156-167 | A path that does not parse is answered with 404 whatever the store holds. |
| Server.AddLanguage | services/races/server.go:200-232 | `add_language`. Stated by `Server.AddLanguageStatus` and `AddLanguageSkipsStore`. |
| Server.AddLanguageStatus | services/races/server.go:200-232 | Non-POST gives 405, an undecodable body or a missing or empty name gives 400, and a failed insert gives 500. Otherwise it gives 201, or 304 when the language already existed. |
| Server.AddLanguageSkipsStore | services/races/server.go:200-218 | A wrong method or invalid body is answered without consulting the store. |
| Server.AddRace | services/races/server.go:235-275 | `add_race`. Stated by `Server.AddRaceStatus` and `AddRaceSkipsStore`. |
| Server.AddRaceStatus | services/races/server.go:235-275 | Non-POST gives 405 and an invalid body or empty name gives 400. Otherwise the reply is 201 exactly when the race's whole write plan passes, echoing the payload with the new id, and 500 exactly when it does not. |
| Server.AddRaceSkipsStore | services/races/server.go:235-253 | A wrong method or invalid body is answered without consulting the store. |
| Server.DeleteRaces | services/races/server.go:278-291 | `delete_races`. Stated by `Server.DeleteRacesStatus`. |
| Server.DeleteRacesStatus | services/races/server.go:278-291 | Non-DELETE gives 405, and DELETE always gives 204 with no body, since the truncate's error is never returned. |
| Env.Env | services/races/main.go:12-27 | One value per key: the environment's value when present, "" when absent. The absent keys are collected in order, and the call is fatal exactly when any is absent. |
| Env.AbsentMembers | services/races/main.go:13-22 | A key is reported missing exactly when it is requested and absent from the environment. |
| Env.AbsentEmpty | services/races/main.go:23-25 | Nothing is reported missing, so the call is not fatal, exactly when every requested key is present. |
| Sync.PopulateFromApi | services/races/main.go:76-88 | The bulk write is attempted exactly when the API call succeeded. |
| Sync.PopulateFromApiWrites | services/races/main.go:76-88 | When attempted, the write receives the conversion of every API record, in response order. |

## Left out

- The HTTP server, routing, `root` and `list_languages` are left out. Handlers take the method, the decoded body and the store's answers as parameters.
- JSON encoding and decoding are left out. Decoding is an input; encoding is assumed to succeed, so the handlers' "marshal failed" branches are not modelled.
- `connect`, `init_db`, `read_races` and `read_languages` are left out. These are row scanning and `pq.Array` conversion, so a read of races is an input.
- SQL semantics are not modelled: constraints, `ON CONFLICT`, `RETURNING` and table contents. The store is an oracle that answers each statement with success or an error.
- Transaction atomicity is not modelled. The model records which statements are issued and in what order, but not what the database keeps after a rollback. `write_race` issues its insert on the connection rather than the transaction. The model's statements carry no connection-or-transaction marker, so this fact is not modelled.
- Logging is left out: `log.Println`, the debug print of every race after a sync, and the log lines of `populate_from_api`. The `log.Fatalln` in `env` is the `fatal` result.
- The GraphQL request of `collect_from_api` is left out. Its outcome is a parameter.
- Text.Format covers only the `%s` and `%d` verbs, the ones `Race.String` uses.
- Text.Atoi accepts only an optional sign followed by decimal digits within the int64 range. This is what `strconv.Atoi` accepts in base 10 on a 64-bit platform.
- Go's `int` (ids, the export's speed) is modelled as an unbounded integer. Only `int32` wrap-around is written out, because that is the conversion the code performs.
- Store.ReadRace and Store.AddLang return the zero value when no row is produced. After a scan error, Go returns whatever the scan had filled in, but every caller ignores the value when `ok` is false.
- Store.WriteRace takes the id the insert returns as a parameter `newId`, since the oracle only answers success or failure.

=== FILE: client.dfy ===
/** The API side of services/races/client.go: the wire record `raceData`, its
    conversion to a `Race`, and the per-record mapping of `collect_from_api`.
    The GraphQL call itself is a parameter: its outcome arrives as a `Result`. */
module Client {
  import opened Results
  import opened Races

  datatype LanguageData = LanguageData(name: string)

  /** A record as the API delivers it. Size and speed are plain values: a value
      absent on the wire arrives as "" or 0. */
  datatype RaceData = RaceData(
    name: string,
    languages: seq<LanguageData>,
    size: string,
    speed: Int32)

  /** The language names, in order, one per wire language. */
  function LanguageNames(ls: seq<LanguageData>): (names: seq<string>)
    ensures |names| == |ls|
    ensures forall i | 0 <= i < |ls| :: names[i] == ls[i].name
    decreases |ls|
  {
    if |ls| == 0 then [] else [ls[0].name] + LanguageNames(ls[1..])
  }

  /** `raceData.convert`: an unsaved race (id 0) with the same name, the
      language names, and size and speed always present, even when "" or 0. */
  function Convert(rd: RaceData): (r: Race)
    ensures r.id == 0 && r.name == rd.name
    ensures |r.languages| == |rd.languages|
    ensures forall i | 0 <= i < |rd.languages| :: r.languages[i] == rd.languages[i].name
    ensures r.size == Some(rd.size) && r.speed == Some(rd.speed)
  {
    Race(0, rd.name, LanguageNames(rd.languages), Some(rd.size), Some(rd.speed))
  }

  function ConvertAll(rs: seq<RaceData>): (out: seq<Race>)
    ensures |out| == |rs|
    ensures forall i | 0 <= i < |rs| :: out[i] == Convert(rs[i])
    decreases |rs|
  {
    if |rs| == 0 then [] else [Convert(rs[0])] + ConvertAll(rs[1..])
  }

  /** `collect_from_api` after the client call: a client error is returned with
      no data; otherwise one converted race per record, in response order. */
  function CollectFromApi(response: Result<seq<RaceData>>): (r: Result<seq<Race>>)
    ensures response.Err? ==> r == Err(response.error)
    ensures response.Ok? ==> r.Ok? && |r.value| == |response.value|
    ensures response.Ok? ==> forall i | 0 <= i < |response.value| :: r.value[i] == Convert(response.value[i])
  {
    match response
    case Err(e) => Err(e)
    case Ok(rs) => Ok(ConvertAll(rs))
  }
}

=== FILE: env.dfy ===
/** `env` of services/races/main.go, with the process environment given as a
    finite map and `log.Fatalln` as a returned flag. */
module Env {

  /** The keys absent from the environment, in key order, repeats kept. */
  function Absent(environ: map<string, string>, keys: seq<string>): seq<string>
    decreases |keys|
  {
    if |keys| == 0 then []
    else
      var last := keys[|keys| - 1];
      Absent(environ, keys[..|keys| - 1]) + (if last in environ then [] else [last])
  }

  /** `env(keys...)`: one value per key, the environment's value for a present
      key and "" for an absent one; the absent keys are collected, and any of
      them makes the call fatal. */
  method Env(environ: map<string, string>, keys: seq<string>) returns (values: seq<string>, missing: seq<string>, fatal: bool)
    ensures |values| == |keys|
    ensures forall i | 0 <= i < |keys| :: keys[i] in environ ==> values[i] == environ[keys[i]]
    ensures forall i | 0 <= i < |keys| :: keys[i] !in environ ==> values[i] == ""
    ensures missing == Absent(environ, keys)
    ensures fatal <==> |missing| != 0
  {
    values := seq(|keys|, _ => "");
    missing := [];
    var i := 0;
    while i < |keys|
      invariant 0 <= i <= |keys|
      invariant |values| == |keys|
      invariant forall j | 0 <= j < i :: keys[j] in environ ==> values[j] == environ[keys[j]]
      invariant forall j | 0 <= j < |keys| :: (i <= j || keys[j] !in environ) ==> values[j] == ""
      invariant missing == Absent(environ, keys[..i])
    {
      assert keys[..i + 1][..i] == keys[..i];
      if keys[i] in environ {
        values := values[i := environ[keys[i]]];
      } else {
        missing := missing + [keys[i]];
      }
      i := i + 1;
    }
    assert keys[..|keys|] == keys;
    fatal := |missing| != 0;
  }

  /** A key is reported missing exactly when it is one of the keys and the
      environment lacks it. */
  lemma {:induction false} AbsentMembers(environ: map<string, string>, keys: seq<string>, k: string)
    ensures k in Absent(environ, keys) <==> k in keys && k !in environ
    decreases |keys|
  {
    if |keys| > 0 {
      var init := keys[..|keys| - 1];
      AbsentMembers(environ, init, k);
      assert keys == init + [keys[|keys| - 1]];
    }
  }

  /** The missing list keeps key order: it is the keys with the present ones
      removed, so it is never longer than the key list and is empty exactly
      when every key is present. */
  lemma {:induction false} AbsentEmpty(environ: map<string, string>, keys: seq<string>)
    ensures |Absent(environ, keys)| <= |keys|
    ensures |Absent(environ, keys)| == 0 <==> forall i | 0 <= i < |keys| :: keys[i] in environ
    decreases |keys|
  {
    if |keys| > 0 {
      var init := keys[..|keys| - 1];
      AbsentEmpty(environ, init);
      if forall i | 0 <= i < |init| :: init[i] in environ {
        if keys[|keys| - 1] in environ {
          forall i | 0 <= i < |keys|
            ensures keys[i] in environ
          {
            if i < |init| {
              assert keys[i] == init[i];
            }
          }
        }
      } else {
        var i :| 0 <= i < |init| && init[i] !in environ;
        assert keys[i] == init[i];
      }
    }
  }
}

=== FILE: races.dfy ===
/** The `Race` record of services/races/main.go and its `String` rendering.

    Go keeps `size` as `sql.NullString` and `speed` as `sql.NullInt32`, a value
    plus a `Valid` flag; here each is an `Option`, `None` standing for
    `Valid == false`. */
module Races {
  import opened Results
  import opened Text

  /** The range of Go's `int32`. */
  predicate IsInt32(x: int)
  {
    -0x8000_0000 <= x <= 0x7FFF_FFFF
  }

  /** Go's `int32`. */
  type Int32 = x: int | IsInt32(x)

  /** Go's conversion `int32(x)`: keeps the low 32 bits, read as two's complement. */
  function ToInt32(x: int): (r: Int32)
    ensures IsInt32(x) ==> r == x
    ensures (x - r) % 0x1_0000_0000 == 0
  {
    ((x + 0x8000_0000) % 0x1_0000_0000) - 0x8000_0000
  }

  /** A race. `id` is assigned by the store and is 0 before the race is stored. */
  datatype Race = Race(
    id: int,
    name: string,
    languages: seq<string>,
    size: Option<string>,
    speed: Option<Int32>)

  /** The text `String` prints for a null column. */
  const NullText: string := "<NULL>"

  function SizeText(size: Option<string>): string
  {
    match size
    case None => NullText
    case Some(s) => s
  }

  function SpeedText(speed: Option<Int32>): string
  {
    match speed
    case None => NullText
    case Some(v) => Itoa(v)
  }

  /** The format string of `Race.String`,
      "Race %s (%d) Size: %s, Speed: %s, Languages: %s", written as its literal
      pieces each followed by the rest of the template, so that each verb can be
      taken in turn. */
  const LanguagesPart: string := ", Languages: " + "%s"
  const SpeedPart: string := ", Speed: " + ("%s" + LanguagesPart)
  const SizePart: string := ") Size: " + ("%s" + SpeedPart)
  const IdPart: string := " (" + ("%d" + SizePart)
  const RaceTemplate: string := "Race " + ("%s" + IdPart)

  /** `Race.String`: the fields formatted into `RaceTemplate`, languages joined by ", ". */
  function RaceString(r: Race): string
  {
    Format(RaceTemplate, [
      Str(r.name),
      Int(r.id),
      Str(SizeText(r.size)),
      Str(SpeedText(r.speed)),
      Str(Join(r.languages, ", "))])
  }

  /** A literal prefix followed by one verb: the literal, then the rendered argument. */
  lemma FormatStep(lit: string, v: char, a: Arg, rest: string, args: seq<Arg>)
    requires '%' !in lit
    requires Verb(v, a).Some?
    ensures Format(lit + (['%', v] + rest), [a] + args) == lit + (Verb(v, a).value + Format(rest, args))
  {
    FormatLiteral(lit, ['%', v] + rest, [a] + args);
    FormatVerb(v, a, rest, args);
  }

  // One lemma per verb of the template, each keeping a single literal in view:
  // this keeps the solver's sequence reasoning small.

  lemma RenderLanguages(langs: string)
    ensures Format(LanguagesPart, [Str(langs)]) == ", Languages: " + langs
  {
    assert LanguagesPart == ", Languages: " + (['%', 's'] + "");
    assert [Str(langs)] == [Str(langs)] + [];
    FormatStep(", Languages: ", 's', Str(langs), "", []);
  }

  lemma RenderSpeed(speed: string, langs: string)
    ensures Format(SpeedPart, [Str(speed), Str(langs)]) == ", Speed: " + (speed + (", Languages: " + langs))
  {
    assert [Str(speed), Str(langs)] == [Str(speed)] + [Str(langs)];
    FormatStep(", Speed: ", 's', Str(speed), LanguagesPart, [Str(langs)]);
    RenderLanguages(langs);
  }

  lemma RenderSize(size: string, speed: string, langs: string)
    ensures Format(SizePart, [Str(size), Str(speed), Str(langs)])
         == ") Size: " + (size + (", Speed: " + (speed + (", Languages: " + langs))))
  {
    assert [Str(size), Str(speed), Str(langs)] == [Str(size)] + [Str(speed), Str(langs)];
    FormatStep(") Size: ", 's', Str(size), SpeedPart, [Str(speed), Str(langs)]);
    RenderSpeed(speed, langs);
  }

  lemma RenderId(id: int, size: string, speed: string, langs: string)
    ensures Format(IdPart, [Int(id), Str(size), Str(speed), Str(langs)])
         == " (" + (Itoa(id) + (") Size: " + (size + (", Speed: " + (speed + (", Languages: " + langs))))))
  {
    assert [Int(id), Str(size), Str(speed), Str(langs)] == [Int(id)] + [Str(size), Str(speed), Str(langs)];
    FormatStep(" (", 'd', Int(id), SizePart, [Str(size), Str(speed), Str(langs)]);
    RenderSize(size, speed, langs);
  }

  lemma RenderName(name: string, id: int, size: string, speed: string, langs: string)
    ensures Format(RaceTemplate, [Str(name), Int(id), Str(size), Str(speed), Str(langs)])
         == "Race " + (name + (" (" + (Itoa(id) + (") Size: " + (size + (", Speed: " + (speed + (", Languages: " + langs))))))))
  {
    var args := [Int(id), Str(size), Str(speed), Str(langs)];
    assert [Str(name), Int(id), Str(size), Str(speed), Str(langs)] == [Str(name)] + args;
    FormatStep("Race ", 's', Str(name), IdPart, args);
    RenderId(id, size, speed, langs);
  }

  /** What the template produces: the literal parts of the template with the
      five fields in order between them. */
  lemma RaceStringLayout(r: Race)
    ensures RaceString(r) ==
      "Race " + (r.name + (" (" + (Itoa(r.id) + (") Size: " + (SizeText(r.size)
      + (", Speed: " + (SpeedText(r.speed) + (", Languages: " + Join(r.languages, ", ")))))))))
  {
    RenderName(r.name, r.id, SizeText(r.size), SpeedText(r.speed), Join(r.languages, ", "));
  }

  /** The size field reads "<NULL>" for a null size and the size itself
      otherwise; the speed field reads "<NULL>" exactly when the speed is null,
      and is otherwise the decimal form of the speed. */
  lemma RaceStringFields(r: Race)
    ensures r.size.None? ==> SizeText(r.size) == NullText
    ensures r.size.Some? ==> SizeText(r.size) == r.size.value
    ensures SpeedText(r.speed) == NullText <==> r.speed.None?
    ensures r.speed.Some? ==> Atoi(SpeedText(r.speed)) == Some(r.speed.value as int)
  {
    if r.speed.Some? {
      var t := Itoa(r.speed.value);
      assert t[0] != NullText[0];
      AtoiItoa(r.speed.value);
    }
  }
}

=== FILE: results.dfy ===
/** Go's value-and-error conventions, as datatypes.

    A Go function that returns `(T, error)` is modelled by `Result<T>`; one that
    returns only `error` by `Outcome`. `Error` distinguishes the one sentinel the
    service tests for, `sql.ErrNoRows`, from every other failure. */
module Results {

  datatype Option<+T> = None | Some(value: T)

  /** `ErrNoRows` is `sql.ErrNoRows`; `Fault` is any other error value. */
  datatype Error = ErrNoRows | Fault(message: string)

  /** The error returned by a statement that produces no value (`Exec`, `Begin`,
      `Prepare`, `Close`, `Commit`, `Rollback`): nil or an error. */
  datatype Outcome = Pass | Fail(error: Error)

  /** A value-or-error result (`QueryRow(..).Scan`, `read_races`, the API client). */
  datatype Result<+T> = Ok(value: T) | Err(error: Error)
}

=== FILE: server.dfy ===
/** The request handling of services/races/server.go, with HTTP and JSON taken
    away: each handler is a function from the request's method, path or decoded
    body and the store's answers to the status code and body it writes. */
module Server {
  import opened Results
  import opened Text
  import opened Races
  import opened Store
  import StoreProofs

  const StatusOK: int := 200
  const StatusCreated: int := 201
  const StatusNoContent: int := 204
  const StatusNotModified: int := 304
  const StatusBadRequest: int := 400
  const StatusNotFound: int := 404
  const StatusMethodNotAllowed: int := 405
  const StatusInternalServerError: int := 500

  /** `raceExport`, the JSON shape of a race: a nil pointer is `None`. Go's
      `*int` speed is a 64-bit `int`, unbounded here. */
  datatype RaceExport = RaceExport(
    id: int,
    name: string,
    size: Option<string>,
    speed: Option<int>,
    languages: seq<string>)

  /** What a handler writes after the status line. This is what the handler
      hands to the response writer, not what the client receives: for a 304
      status Go's `net/http` refuses the body and sends none. */
  datatype Body =
    | Empty
    | Message(text: string)
      // `errorResponse`, marshalled
    | ErrorJson(message: string, statusCode: int)
    | RaceList(races: seq<RaceExport>)
    | RaceJson(race: RaceExport)

  datatype Reply = Reply(status: int, body: Body)

  /** The outcome of `json.NewDecoder(r.Body).Decode(&data)`. */
  datatype Decode<T> = Decoded(value: T) | Eof | Malformed(message: string)

  /** `err.Error()`; the text of `sql.ErrNoRows` is the driver's. */
  function ErrorText(e: Error): string
  {
    match e
    case ErrNoRows => "sql: no rows in result set"
    case Fault(m) => m
  }

  // ---------------------------------------------------------------------
  // export

  /** `Race.export`: id, name and languages copied; size and speed present
      exactly when valid, speed widened from `int32` to `int`. */
  function Export(r: Race): (e: RaceExport)
    ensures e.id == r.id && e.name == r.name && e.languages == r.languages
    ensures e.size.Some? <==> r.size.Some?
    ensures e.size.Some? ==> e.size.value == r.size.value
    ensures e.speed.Some? <==> r.speed.Some?
    ensures e.speed.Some? ==> e.speed.value == r.speed.value as int
  {
    RaceExport(
      r.id,
      r.name,
      match r.size case None => None case Some(s) => Some(s),
      match r.speed case None => None case Some(v) => Some(v as int),
      r.languages)
  }

  /** `exportRaces`: one export per race, same length and order. */
  function ExportRaces(rs: seq<Race>): (out: seq<RaceExport>)
    ensures |out| == |rs|
    ensures forall i | 0 <= i < |rs| :: out[i] == Export(rs[i])
    decreases |rs|
  {
    if |rs| == 0 then [] else [Export(rs[0])] + ExportRaces(rs[1..])
  }

  /** The zero `raceExport`, what an empty request body leaves. */
  const ZeroExport: RaceExport := RaceExport(0, "", None, None, [])

  /** The `Race` that `add_race` builds from a payload: id 0, the name and
      languages, size valid iff given, and speed valid iff given, converted
      with Go's `int32(..)`, which wraps values outside the 32-bit range. */
  function PayloadToRace(p: RaceExport): (r: Race)
    ensures r.id == 0 && r.name == p.name && r.languages == p.languages
    ensures r.size == p.size
    ensures r.speed.Some? <==> p.speed.Some?
    ensures r.speed.Some? ==> r.speed.value == ToInt32(p.speed.value)
  {
    Race(0, p.name, p.languages, p.size,
      match p.speed case None => None case Some(v) => Some(ToInt32(v)))
  }

  /** A payload whose speed fits in `int32` survives conversion and export
      unchanged, apart from the id. */
  lemma ExportPayload(p: RaceExport)
    requires p.speed.Some? ==> IsInt32(p.speed.value)
    ensures Export(PayloadToRace(p)) == p.(id := 0)
  {
  }

  /** Exporting a race and converting it back gives the race, apart from the id. */
  lemma PayloadExport(r: Race)
    ensures PayloadToRace(Export(r)) == r.(id := 0)
  {
  }

  /** A speed outside `int32` does not survive: the stored speed is another
      value congruent to it modulo 2^32 (2^31 is stored as -2^31), so the
      stored race does not export back to the payload. */
  lemma PayloadSpeedWraps(p: RaceExport)
    requires p.speed.Some? && !IsInt32(p.speed.value)
    ensures PayloadToRace(p).speed.Some?
    ensures PayloadToRace(p).speed.value as int != p.speed.value
    ensures (p.speed.value - PayloadToRace(p).speed.value) % 0x1_0000_0000 == 0
    ensures Export(PayloadToRace(p)) != p.(id := 0)
  {
    assert Export(PayloadToRace(p)).speed.value != p.speed.value;
  }

  // ---------------------------------------------------------------------
  // list_races

  /** `list_races`, given what `read_races` returned. */
  function ListRaces(read: Result<seq<Race>>): (reply: Reply)
    ensures reply.status == StatusInternalServerError <==> read.Err?
    ensures reply.status == StatusNoContent <==> read.Ok? && |read.value| == 0
    ensures reply.status == StatusOK <==> read.Ok? && |read.value| > 0
    ensures read.Err? ==> reply.body == ErrorJson(ErrorText(read.error), StatusInternalServerError)
    ensures reply.status == StatusOK ==> reply.body.RaceList? && |reply.body.races| == |read.value|
    ensures reply.status == StatusOK ==>
      forall i | 0 <= i < |read.value| :: reply.body.races[i] == Export(read.value[i])
  {
    match read
    case Err(e) => Reply(StatusInternalServerError, ErrorJson(ErrorText(e), StatusInternalServerError))
    case Ok(rs) =>
      if |rs| == 0 then Reply(StatusNoContent, Empty)
      else Reply(StatusOK, RaceList(ExportRaces(rs)))
  }

  // ---------------------------------------------------------------------
  // show_race

  /** The id of a `/race/<id>` path: split on '/', exactly three pieces, the
      middle one "race", the last one an integer. */
  function ParseRacePath(path: string): Option<int>
  {
    var parts := Split(path, '/');
    if !IsRacePath(parts) then None else Atoi(parts[2])
  }

  /** The pieces of a `/race/<id>` path: three, the middle one "race". */
  predicate IsRacePath(parts: seq<string>)
  {
    |parts| == 3 && parts[1] == "race"
  }

  /** `show_race`. `read` is the store's answer to a row query for an id. */
  function ShowRace(path: string, read: int -> Result<Race>): Reply
  {
    var parts := Split(path, '/');
    if !IsRacePath(parts) then Reply(StatusNotFound, Message("Path not defined"))
    else
      match ParseRacePath(path)
      case None => Reply(StatusNotFound, Message("No resource with this id"))
      case Some(id) =>
        var found := ReadRace(read(id));
        if !found.found then Reply(StatusNotFound, Empty)
        else
          match found.err
          case None => Reply(StatusOK, RaceJson(Export(found.value)))
          case Some(e) => Reply(StatusInternalServerError, ErrorJson(ErrorText(e), StatusInternalServerError))
  }

  /** A parsed path has the shape `a + "/race/" + d`, with no '/' in `a` or `d`
      and `d` reading as the id. */
  lemma ParseRacePathShape(path: string, id: int)
    requires ParseRacePath(path) == Some(id)
    ensures var parts := Split(path, '/');
      && path == parts[0] + "/race/" + parts[2]
      && '/' !in parts[0] && '/' !in parts[2]
      && Atoi(parts[2]) == Some(id)
  {
    var parts := Split(path, '/');
    JoinSplit(path, '/');
    assert parts == [parts[0]] + [parts[1], parts[2]];
    assert Join(parts, "/") == parts[0] + "/" + Join([parts[1], parts[2]], "/");
    assert [parts[1], parts[2]][1..] == [parts[2]];
  }

  /** Every path of that shape parses, to whatever its last piece reads as. */
  lemma ParseRacePathOf(a: string, d: string)
    requires '/' !in a && '/' !in d
    ensures ParseRacePath(a + "/race/" + d) == Atoi(d)
  {
    var xs := [a, "race", d];
    assert Join(xs, "/") == a + "/race/" + d by {
      assert xs[1..] == ["race", d];
      assert ["race", d][1..] == [d];
      assert Join(["race", d], "/") == "race" + "/" + d;
      assert "/" + ("race" + "/") == "/race/";
    }
    forall i | 0 <= i < |xs|
      ensures '/' !in xs[i]
    {
    }
    SplitJoin(xs, '/');
  }

  /** `/race/` followed by the decimal form of an id reaches that id. */
  lemma ParseRacePathItoa(id: int)
    requires MinInt64 <= id <= MaxInt64
    ensures ParseRacePath("/race/" + Itoa(id)) == Some(id)
  {
    var d := Itoa(id);
    assert '/' !in d;
    assert "" + "/race/" + d == "/race/" + d;
    ParseRacePathOf("", d);
    AtoiItoa(id);
  }

  /** `show_race` answers 200 with the exported race exactly when the path
      parses and the store has the row; otherwise 404 — for a bad path, an
      id that does not parse, a missing row, and also a store error, because
      `!ok` is tested before `err`. The 500 branch can never be taken. */
  lemma ShowRaceStatus(path: string, read: int -> Result<Race>)
    ensures var reply := ShowRace(path, read);
      reply.status == StatusOK || reply.status == StatusNotFound
    ensures var reply := ShowRace(path, read); var id := ParseRacePath(path);
      reply.status == StatusOK <==> id.Some? && read(id.value).Ok?
    ensures var reply := ShowRace(path, read); var id := ParseRacePath(path);
      reply.status == StatusOK ==> reply.body == RaceJson(Export(read(id.value).value))
  {
  }

  /** A path that does not parse never reaches the store. */
  lemma ShowRaceSkipsStore(path: string, read1: int -> Result<Race>, read2: int -> Result<Race>)
    requires ParseRacePath(path).None?
    ensures ShowRace(path, read1) == ShowRace(path, read2)
  {
  }

  // ---------------------------------------------------------------------
  // add_language

  /** `add_language`. The decoded body is the `name` field; `insert` is the
      store's answer to the insert for a name. An empty body (EOF) leaves the
      name blank. */
  function AddLanguage(httpMethod: string, body: Decode<string>, insert: string -> Result<int>): Reply
  {
    if httpMethod != "POST" then Reply(StatusMethodNotAllowed, Message("This is a POST endpoint"))
    else if body.Malformed? then Reply(StatusBadRequest, Message(body.message))
    else
      var name := RequestedName(body);
      if name == "" then Reply(StatusBadRequest, Message("Name must not be blank"))
      else
        var added := AddLang(insert(name));
        match added.err
        case Some(e) => Reply(StatusInternalServerError, Message(ErrorText(e)))
        case None =>
          if !added.found then Reply(StatusNotModified, Message("Already exists"))
          else Reply(StatusCreated, Empty)
  }

  /** The name `add_language` would insert, if the request gets that far. */
  function RequestedName(body: Decode<string>): string
  {
    if body.Decoded? then body.value else ""
  }

  /** The status table of `add_language`: 405 for any httpMethod but POST; 400
      for a malformed body or a blank name (an empty body included); then 500
      when the insert fails, 304 when it returns no row, 201 when it returns one. */
  lemma AddLanguageStatus(httpMethod: string, body: Decode<string>, insert: string -> Result<int>)
    ensures var s := AddLanguage(httpMethod, body, insert).status;
      s == StatusMethodNotAllowed <==> httpMethod != "POST"
    ensures var s := AddLanguage(httpMethod, body, insert).status;
      s == StatusBadRequest <==> httpMethod == "POST" && (body.Malformed? || RequestedName(body) == "")
    ensures var s := AddLanguage(httpMethod, body, insert).status; var n := RequestedName(body);
      s == StatusInternalServerError <==>
        httpMethod == "POST" && !body.Malformed? && n != "" && insert(n).Err? && insert(n).error != ErrNoRows
    ensures var s := AddLanguage(httpMethod, body, insert).status; var n := RequestedName(body);
      s == StatusNotModified <==> httpMethod == "POST" && !body.Malformed? && n != "" && insert(n) == Err(ErrNoRows)
    ensures var s := AddLanguage(httpMethod, body, insert).status; var n := RequestedName(body);
      s == StatusCreated <==> httpMethod == "POST" && !body.Malformed? && n != "" && insert(n).Ok?
  {
  }

  /** A request refused with 405 or 400 never reaches the store. */
  lemma AddLanguageSkipsStore(httpMethod: string, body: Decode<string>, insert1: string -> Result<int>, insert2: string -> Result<int>)
    requires httpMethod != "POST" || body.Malformed? || RequestedName(body) == ""
    ensures AddLanguage(httpMethod, body, insert1) == AddLanguage(httpMethod, body, insert2)
  {
  }

  // ---------------------------------------------------------------------
  // add_race

  /** `add_race`. `db` answers the statements of `write_race` and `newId` is
      the id its insert returns. On success the reply echoes the payload as
      decoded, with the new id: the speed echoed is the one sent, even when
      the stored one wrapped. */
  function AddRace(httpMethod: string, body: Decode<RaceExport>, db: Oracle, newId: int): Reply
  {
    if httpMethod != "POST" then Reply(StatusMethodNotAllowed, Message("This is a POST endpoint"))
    else if body.Malformed? then Reply(StatusBadRequest, Message(body.message))
    else
      var data := RequestedRace(body);
      if data.name == "" then Reply(StatusBadRequest, Message("Name must not be blank"))
      else
        var w := WriteRace(db, newId, PayloadToRace(data));
        match w.err
        case Some(e) => Reply(StatusInternalServerError, Message(ErrorText(e)))
        case None => Reply(StatusCreated, RaceJson(data.(id := w.id)))
  }

  /** The payload `add_race` works on, if the request gets that far. */
  function RequestedRace(body: Decode<RaceExport>): RaceExport
  {
    if body.Decoded? then body.value else ZeroExport
  }

  /** The status table of `add_race`: 405 for any httpMethod but POST; 400 for a
      malformed body or a blank name; then 201 exactly when every statement of
      `write_race`'s plan succeeds, echoing the payload with the new id, and
      500 otherwise. */
  lemma AddRaceStatus(httpMethod: string, body: Decode<RaceExport>, db: Oracle, newId: int)
    ensures var s := AddRace(httpMethod, body, db, newId).status;
      s == StatusMethodNotAllowed <==> httpMethod != "POST"
    ensures var s := AddRace(httpMethod, body, db, newId).status;
      s == StatusBadRequest <==> httpMethod == "POST" && (body.Malformed? || RequestedRace(body).name == "")
    ensures var s := AddRace(httpMethod, body, db, newId).status; var p := RequestedRace(body);
      s == StatusCreated <==> (httpMethod == "POST" && !body.Malformed? && p.name != ""
        && Passes(db, 0, WriteRacePlan(PayloadToRace(p), newId)))
    ensures var s := AddRace(httpMethod, body, db, newId).status; var p := RequestedRace(body);
      s == StatusInternalServerError <==> (httpMethod == "POST" && !body.Malformed? && p.name != ""
        && !Passes(db, 0, WriteRacePlan(PayloadToRace(p), newId)))
    ensures var reply := AddRace(httpMethod, body, db, newId);
      reply.status == StatusCreated ==> reply.body == RaceJson(RequestedRace(body).(id := newId))
  {
    var p := RequestedRace(body);
    StoreProofs.WriteRaceResult(db, newId, PayloadToRace(p), WriteRace(db, newId, PayloadToRace(p)));
  }

  /** A request refused with 405 or 400 never reaches the store. */
  lemma AddRaceSkipsStore(httpMethod: string, body: Decode<RaceExport>, db1: Oracle, db2: Oracle, newId: int)
    requires httpMethod != "POST" || body.Malformed? || RequestedRace(body).name == ""
    ensures AddRace(httpMethod, body, db1, newId) == AddRace(httpMethod, body, db2, newId)
  {
  }

  // ---------------------------------------------------------------------
  // delete_races

  /** `delete_races`, given the store's answer to the TRUNCATE. */
  function DeleteRaces(httpMethod: string, exec: Outcome): Reply
  {
    if httpMethod != "DELETE" then Reply(StatusMethodNotAllowed, Message("This is a DELETE endpoint"))
    else
      match TruncateRaces(exec)
      case Some(e) => Reply(StatusInternalServerError, Message(ErrorText(e)))
      case None => Reply(StatusNoContent, Empty)
  }

  /** `delete_races` answers 405 for any httpMethod but DELETE and otherwise 204,
      whatever the TRUNCATE answered: `truncate_races` never reports its error. */
  lemma DeleteRacesStatus(httpMethod: string, exec: Outcome)
    ensures DeleteRaces(httpMethod, exec).status == StatusMethodNotAllowed <==> httpMethod != "DELETE"
    ensures DeleteRaces(httpMethod, exec).status == StatusNoContent <==> httpMethod == "DELETE"
    ensures httpMethod == "DELETE" ==> DeleteRaces(httpMethod, exec) == Reply(StatusNoContent, Empty)
  {
  }
}

=== FILE: store.dfy ===
/** The store side of services/races/db.go.

    The database is an oracle: `db(i, op)` is the driver's answer to the
    statement `op` when it is the i-th statement of the operation. Each
    operation is a function of the oracle returning the statements it issued,
    in order (its trace), and the error it returns. The functions follow the
    Go code loop by loop; `RunPlan` is an independent reference that runs a
    flat list of statements until the first failure, and the lemmas in
    store_proofs.dfy connect the two. */
module Store {
  import opened Results
  import opened Races

  datatype Op =
    | Begin
    | Commit
    | Rollback
      // populate_races: a COPY into races(name, size, speed)
    | PrepareCopy
    | CopyRow(name: string, size: Option<string>, speed: Option<Int32>)
    | Flush
    | CloseCopy
      // populate_languages: the language insert and the race-language link
    | PrepareLang
    | PrepareLink
    | LangInsert(lang: string)
    | LinkInsert(race: string, lang: string)
    | CloseLang
    | CloseLink
      // write_race: the race row, then one language statement per language
    | InsertRace(name: string, size: Option<string>, speed: Option<Int32>)
    | PrepareRaceLang
    | RaceLangInsert(lang: string, raceId: int)
    | CloseRaceLang

  /** The driver's answer to the i-th statement of an operation. */
  type Oracle = (nat, Op) -> Outcome

  /** The statements issued so far and the error the operation returns. */
  datatype Run = Run(trace: seq<Op>, err: Option<Error>)

  /** Issue one statement after trace `t`. */
  function Exec(db: Oracle, t: seq<Op>, op: Op): (r: Run)
    ensures r.trace == t + [op]
    ensures r.err.None? <==> db(|t|, op).Pass?
    ensures r.err.Some? ==> db(|t|, op) == Fail(r.err.value)
  {
    match db(|t|, op)
    case Pass => Run(t + [op], None)
    case Fail(e) => Run(t + [op], Some(e))
  }

  /** Every statement of `plan`, issued from position `at` on, succeeds. */
  ghost predicate Passes(db: Oracle, at: nat, plan: seq<Op>)
  {
    forall i | 0 <= i < |plan| :: db(at + i, plan[i]).Pass?
  }

  /** How far `plan` gets when its first statement is the `at`-th of the
      operation: the number of statements issued, stopping at the first one
      that fails, and that statement's error. */
  function Reach(db: Oracle, at: nat, plan: seq<Op>): (r: (nat, Option<Error>))
    ensures r.0 <= |plan|
    ensures r.1.None? ==> r.0 == |plan|
    ensures r.1.Some? ==> 0 < r.0 && db(at + r.0 - 1, plan[r.0 - 1]) == Fail(r.1.value)
    decreases |plan|
  {
    if |plan| == 0 then (0, None)
    else
      match db(at, plan[0])
      case Fail(e) => (1, Some(e))
      case Pass =>
        var r := Reach(db, at + 1, plan[1..]);
        (r.0 + 1, r.1)
  }

  /** Reference semantics: issue the statements of `plan` in order after `t`,
      stopping at the first one that fails and returning its error. The trace
      is a prefix of the plan, the error is present iff its last statement
      failed, and absent only when the whole plan ran (that every earlier
      statement succeeded is `RunPlanPassed`). */
  function RunPlan(db: Oracle, t: seq<Op>, plan: seq<Op>): (r: Run)
    ensures |t| <= |r.trace| <= |t| + |plan|
    ensures r.trace == t + plan[..|r.trace| - |t|]
    ensures r.err.None? ==> r.trace == t + plan
    ensures r.err.Some? ==> |t| < |r.trace| && db(|r.trace| - 1, r.trace[|r.trace| - 1]) == Fail(r.err.value)
  {
    var reach := Reach(db, |t|, plan);
    assert plan[..|plan|] == plan;
    Run(t + plan[..reach.0], reach.1)
  }

  // ---------------------------------------------------------------------
  // populate_races

  /** One COPY row per race, in batch order. */
  function CopyOps(data: seq<Race>): (ops: seq<Op>)
    ensures |ops| == |data|
    ensures forall i | 0 <= i < |data| :: ops[i] == CopyRow(data[i].name, data[i].size, data[i].speed)
    decreases |data|
  {
    if |data| == 0 then [] else [CopyRow(data[0].name, data[0].size, data[0].speed)] + CopyOps(data[1..])
  }

  /** The statements of populate_races whose failure it returns. */
  function RacePlan(data: seq<Race>): seq<Op>
  {
    [PrepareCopy] + CopyOps(data) + [Flush]
  }

  function CopyRows(db: Oracle, t: seq<Op>, rows: seq<Race>): Run
    decreases |rows|
  {
    if |rows| == 0 then Run(t, None)
    else
      var row := Exec(db, t, CopyRow(rows[0].name, rows[0].size, rows[0].speed));
      if row.err.Some? then row else CopyRows(db, row.trace, rows[1..])
  }

  /** `populate_races`: prepare the COPY, send every row, flush, close. A
      failure to close the statement is only logged. */
  function PopulateRaces(db: Oracle, t: seq<Op>, data: seq<Race>): Run
  {
    var prepare := Exec(db, t, PrepareCopy);
    if prepare.err.Some? then prepare
    else
      var rows := CopyRows(db, prepare.trace, data);
      if rows.err.Some? then rows
      else
        var flush := Exec(db, rows.trace, Flush);
        if flush.err.Some? then flush
        else
          var close := Exec(db, flush.trace, CloseCopy);
          Run(close.trace, None)
  }

  // ---------------------------------------------------------------------
  // populate_languages

  /** Go's `m[k]` on a `map[string]bool`: false for a missing key. */
  function MapGet(m: map<string, bool>, k: string): bool
  {
    k in m && m[k]
  }

  /** `seen_lang`: created empty, read for every language, never assigned. */
  const SeenLang: map<string, bool> := map[]

  /** Each (race, language) occurrence of the batch, in batch order, duplicates kept. */
  function Occurrences(data: seq<Race>): (occ: seq<(string, string)>)
    ensures |occ| == TotalLanguages(data)
    decreases |data|
  {
    if |data| == 0 then [] else LanguagePairs(data[0].name, data[0].languages) + Occurrences(data[1..])
  }

  /** The (race, language) pairs of one race, in order. */
  function LanguagePairs(race: string, langs: seq<string>): (pairs: seq<(string, string)>)
    ensures |pairs| == |langs|
    ensures forall j | 0 <= j < |langs| :: pairs[j] == (race, langs[j])
    decreases |langs|
  {
    if |langs| == 0 then [] else [(race, langs[0])] + LanguagePairs(race, langs[1..])
  }

  /** The number of language references in the batch. */
  function TotalLanguages(data: seq<Race>): nat
    decreases |data|
  {
    if |data| == 0 then 0 else |data[0].languages| + TotalLanguages(data[1..])
  }

  /** For one race: a language insert and then a link, per language. */
  function PairOps(race: string, langs: seq<string>): (ops: seq<Op>)
    ensures |ops| == 2 * |langs|
    ensures forall j | 0 <= j < |langs| :: ops[2 * j] == LangInsert(langs[j])
    ensures forall j | 0 <= j < |langs| :: ops[2 * j + 1] == LinkInsert(race, langs[j])
    decreases |langs|
  {
    if |langs| == 0 then []
    else [LangInsert(langs[0]), LinkInsert(race, langs[0])] + PairOps(race, langs[1..])
  }

  /** For the batch: the pairs of every race, in batch order. */
  function OccurrenceOps(data: seq<Race>): seq<Op>
    decreases |data|
  {
    if |data| == 0 then [] else PairOps(data[0].name, data[0].languages) + OccurrenceOps(data[1..])
  }

  /** The statements of populate_languages, all of whose failures it returns. */
  function LanguagePlan(data: seq<Race>): seq<Op>
  {
    [PrepareLang, PrepareLink] + OccurrenceOps(data) + [CloseLang, CloseLink]
  }

  /** The inner loop over one race's languages. */
  function LanguageOccurrences(db: Oracle, t: seq<Op>, race: string, langs: seq<string>): Run
    decreases |langs|
  {
    if |langs| == 0 then Run(t, None)
    else
      var lang := langs[0];
      var insert := if !MapGet(SeenLang, lang) then Exec(db, t, LangInsert(lang)) else Run(t, None);
      if insert.err.Some? then insert
      else
        var link := Exec(db, insert.trace, LinkInsert(race, lang));
        if link.err.Some? then link else LanguageOccurrences(db, link.trace, race, langs[1..])
  }

  /** The outer loop over the races of the batch. */
  function LanguageRows(db: Oracle, t: seq<Op>, rows: seq<Race>): Run
    decreases |rows|
  {
    if |rows| == 0 then Run(t, None)
    else
      var r := LanguageOccurrences(db, t, rows[0].name, rows[0].languages);
      if r.err.Some? then r else LanguageRows(db, r.trace, rows[1..])
  }

  /** `populate_languages`: prepare both statements, run the loops, close both. */
  function PopulateLanguages(db: Oracle, t: seq<Op>, data: seq<Race>): Run
  {
    var lang := Exec(db, t, PrepareLang);
    if lang.err.Some? then lang
    else
      var link := Exec(db, lang.trace, PrepareLink);
      if link.err.Some? then link
      else
        var rows := LanguageRows(db, link.trace, data);
        if rows.err.Some? then rows
        else
          var closeLang := Exec(db, rows.trace, CloseLang);
          if closeLang.err.Some? then closeLang
          else Exec(db, closeLang.trace, CloseLink)
  }

  // ---------------------------------------------------------------------
  // write_data

  /** Roll back after a failed phase: the phase's error is returned, the
      rollback's own error is only logged. */
  function Abort(db: Oracle, failed: Run): Run
  {
    var rollback := Exec(db, failed.trace, Rollback);
    Run(rollback.trace, failed.err)
  }

  /** `write_data`: one transaction around populate_races then
      populate_languages. A failed commit is only logged. */
  function WriteData(db: Oracle, data: seq<Race>): Run
  {
    var begin := Exec(db, [], Begin);
    if begin.err.Some? then begin
    else
      var races := PopulateRaces(db, begin.trace, data);
      if races.err.Some? then Abort(db, races)
      else
        var langs := PopulateLanguages(db, races.trace, data);
        if langs.err.Some? then Abort(db, langs)
        else
          var commit := Exec(db, langs.trace, Commit);
          Run(commit.trace, None)
  }

  /** The statements of a fully successful synchronisation. */
  function SyncPlan(data: seq<Race>): seq<Op>
  {
    [Begin] + RacePlan(data) + [CloseCopy] + LanguagePlan(data) + [Commit]
  }

  predicate IsLanguagePhase(op: Op)
  {
    op.PrepareLang? || op.PrepareLink? || op.LangInsert? || op.LinkInsert? || op.CloseLang? || op.CloseLink?
  }

  // ---------------------------------------------------------------------
  // write_race

  /** The value `write_race` returns: the new id and the error. */
  datatype RaceWrite = RaceWrite(id: int, err: Option<Error>, trace: seq<Op>)

  /** One language statement per language of the race, in order. */
  function RaceLangOps(langs: seq<string>, id: int): (ops: seq<Op>)
    ensures |ops| == |langs|
    ensures forall i | 0 <= i < |langs| :: ops[i] == RaceLangInsert(langs[i], id)
    decreases |langs|
  {
    if |langs| == 0 then [] else [RaceLangInsert(langs[0], id)] + RaceLangOps(langs[1..], id)
  }

  /** The statements a successful `write_race` issues after Begin; `id` is the
      id the insert returned. */
  function RaceStatementsPlan(race: Race, id: int): seq<Op>
  {
    [InsertRace(race.name, race.size, race.speed), PrepareRaceLang]
    + RaceLangOps(race.languages, id) + [CloseRaceLang, Commit]
  }

  /** The statements of a successful `write_race`. */
  function WriteRacePlan(race: Race, id: int): seq<Op>
  {
    [Begin] + RaceStatementsPlan(race, id)
  }

  function RaceLanguages(db: Oracle, t: seq<Op>, langs: seq<string>, id: int): Run
    decreases |langs|
  {
    if |langs| == 0 then Run(t, None)
    else
      var r := Exec(db, t, RaceLangInsert(langs[0], id));
      if r.err.Some? then r else RaceLanguages(db, r.trace, langs[1..], id)
  }

  /** Every failure after Begin: roll back and return `(0, err)`. */
  function FailRace(db: Oracle, failed: Run): RaceWrite
  {
    var rollback := Exec(db, failed.trace, Rollback);
    RaceWrite(0, failed.err, rollback.trace)
  }

  /** The statements `write_race` issues after Begin, stopping at the first
      failure: the race insert, the prepared language statement, one execution
      per language, its close and the commit. The insert is issued on the
      connection, not on the transaction. */
  function RaceStatements(db: Oracle, t: seq<Op>, id: int, race: Race): Run
  {
    var insert := Exec(db, t, InsertRace(race.name, race.size, race.speed));
    if insert.err.Some? then insert
    else
      var prepare := Exec(db, insert.trace, PrepareRaceLang);
      if prepare.err.Some? then prepare
      else
        var langs := RaceLanguages(db, prepare.trace, race.languages, id);
        if langs.err.Some? then langs
        else
          var close := Exec(db, langs.trace, CloseRaceLang);
          if close.err.Some? then close
          else Exec(db, close.trace, Commit)
  }

  /** `write_race`. The store answers the insert with success or failure (a
      missing row being `ErrNoRows`), and `newId` is the id the insert's row
      carries when it succeeds. A failed Begin returns at once; every later
      failure, the commit's included, rolls back and returns `(0, err)`. */
  function WriteRace(db: Oracle, newId: int, race: Race): RaceWrite
  {
    var begin := Exec(db, [], Begin);
    if begin.err.Some? then RaceWrite(0, begin.err, begin.trace)
    else
      var body := RaceStatements(db, begin.trace, newId, race);
      if body.err.Some? then FailRace(db, body)
      else RaceWrite(newId, None, body.trace)
  }

  // ---------------------------------------------------------------------
  // read_race, add_lang, truncate_races

  /** The `(value, ok, err)` triple of a single-row read. */
  datatype Lookup<T> = Lookup(value: T, found: bool, err: Option<Error>)

  /** `QueryRow(..).Scan` mapped to a triple: a row is found with no error;
      `ErrNoRows` is "not found" with no error; any other error is "not found"
      with that error. Exactly one of the three holds. */
  function QueryRow<T>(scan: Result<T>, zero: T): (r: Lookup<T>)
    ensures r.found <==> scan.Ok?
    ensures r.found ==> r.value == scan.value && r.err.None?
    ensures !r.found && r.err.None? <==> scan == Err(ErrNoRows)
    ensures r.err.Some? <==> scan.Err? && scan.error != ErrNoRows
    ensures r.err.Some? ==> r.err.value == scan.error
    ensures !r.found ==> r.value == zero
  {
    match scan
    case Ok(v) => Lookup(v, true, None)
    case Err(e) => if e == ErrNoRows then Lookup(zero, false, None) else Lookup(zero, false, Some(e))
  }

  /** Go's zero `Race`. */
  const ZeroRace: Race := Race(0, "", [], None, None)

  /** `read_race`: the race with the id, its absence, or the failure. */
  function ReadRace(scan: Result<Race>): Lookup<Race>
  {
    QueryRow(scan, ZeroRace)
  }

  /** `add_lang`: the new language's id and "created", or "not created" when
      the insert returned no row, or the failure. */
  function AddLang(scan: Result<int>): Lookup<int>
  {
    QueryRow(scan, 0)
  }

  /** `truncate_races`: the outcome of the TRUNCATE is only logged; the
      function returns no error whatever the store answered. */
  function TruncateRaces(exec: Outcome): (err: Option<Error>)
    ensures err == None
  {
    match exec
    case Pass => None
    case Fail(_) => None
  }
}

=== FILE: store_proofs.dfy ===
/** Properties of the store model: each code-shaped function of `Store` runs
    a flat statement plan under `RunPlan`, and from that follow the orderings,
    counts, stopping points and error choices of db.go. */
module StoreProofs {
  import opened Results
  import opened Races
  import opened Store

  // ---------------------------------------------------------------------
  // RunPlan

  /** Issuing a plan is issuing its first statement, then the rest only if
      the first succeeded. */
  lemma RunPlanCons(db: Oracle, t: seq<Op>, x: Op, rest: seq<Op>)
    ensures RunPlan(db, t, [x] + rest) ==
      (var r := Exec(db, t, x); if r.err.Some? then r else RunPlan(db, r.trace, rest))
  {
    var plan := [x] + rest;
    assert plan[0] == x && plan[1..] == rest;
    if db(|t|, x).Pass? {
      var n := Reach(db, |t| + 1, rest).0;
      assert plan[..n + 1] == [x] + rest[..n];
    } else {
      assert plan[..1] == [x];
    }
  }

  lemma RunPlanSingle(db: Oracle, t: seq<Op>, x: Op)
    ensures RunPlan(db, t, [x]) == Exec(db, t, x)
  {
    assert [x] == [x] + [];
    RunPlanCons(db, t, x, []);
  }

  /** Running `p + q` is running `p`, then `q` only if `p` succeeded. */
  lemma {:induction false} RunPlanAppend(db: Oracle, t: seq<Op>, p: seq<Op>, q: seq<Op>)
    ensures RunPlan(db, t, p + q) ==
      (var r := RunPlan(db, t, p); if r.err.Some? then r else RunPlan(db, r.trace, q))
    decreases |p|
  {
    if |p| == 0 {
      assert p + q == q;
      assert p[..0] == [];
    } else {
      assert p == [p[0]] + p[1..];
      assert p + q == [p[0]] + (p[1..] + q);
      RunPlanCons(db, t, p[0], p[1..] + q);
      RunPlanCons(db, t, p[0], p[1..]);
      if db(|t|, p[0]).Pass? {
        RunPlanAppend(db, t + [p[0]], p[1..], q);
      }
    }
  }

  lemma {:induction false} ReachPassed(db: Oracle, at: nat, plan: seq<Op>)
    ensures var r := Reach(db, at, plan);
      forall i | 0 <= i < r.0 - 1 :: db(at + i, plan[i]).Pass?
    ensures var r := Reach(db, at, plan);
      r.1.None? ==> forall i | 0 <= i < r.0 :: db(at + i, plan[i]).Pass?
    decreases |plan|
  {
    if |plan| > 0 && db(at, plan[0]).Pass? {
      ReachPassed(db, at + 1, plan[1..]);
      var r := Reach(db, at + 1, plan[1..]);
      forall i | 1 <= i < r.0 + 1
        ensures db(at + i, plan[i]).Pass? || (r.1.Some? && i == r.0)
      {
        assert plan[i] == plan[1..][i - 1];
        assert at + i == at + 1 + (i - 1);
      }
    }
  }

  /** Every statement of a run but its last succeeded, and the last one too
      when the run returned no error. */
  lemma RunPlanPassed(db: Oracle, t: seq<Op>, plan: seq<Op>)
    ensures var r := RunPlan(db, t, plan);
      forall i | |t| <= i < |r.trace| - 1 :: db(i, r.trace[i]).Pass?
    ensures var r := RunPlan(db, t, plan);
      r.err.None? ==> forall i | |t| <= i < |r.trace| :: db(i, r.trace[i]).Pass?
  {
    ReachPassed(db, |t|, plan);
    var r := RunPlan(db, t, plan);
    forall i | |t| <= i < |r.trace|
      ensures r.trace[i] == plan[i - |t|]
    {
    }
  }

  /** A plan returns no error exactly when every one of its statements succeeds. */
  lemma RunPlanPasses(db: Oracle, t: seq<Op>, plan: seq<Op>)
    ensures RunPlan(db, t, plan).err.None? <==> Passes(db, |t|, plan)
  {
    var r := RunPlan(db, t, plan);
    RunPlanPassed(db, t, plan);
    if r.err.None? {
      forall i | 0 <= i < |plan|
        ensures db(|t| + i, plan[i]).Pass?
      {
        assert r.trace[|t| + i] == plan[i];
      }
    } else {
      var k := |r.trace| - |t|;
      assert r.trace[|r.trace| - 1] == plan[k - 1];
      assert db(|t| + (k - 1), plan[k - 1]).Fail?;
    }
  }

  /** Two stores that answer the plan's statements alike give the same run. */
  lemma {:induction false} RunPlanAgree(db1: Oracle, db2: Oracle, t: seq<Op>, plan: seq<Op>)
    requires forall i | 0 <= i < |plan| :: db1(|t| + i, plan[i]) == db2(|t| + i, plan[i])
    ensures RunPlan(db1, t, plan) == RunPlan(db2, t, plan)
    decreases |plan|
  {
    if |plan| > 0 {
      assert db1(|t| + 0, plan[0]) == db2(|t| + 0, plan[0]);
      forall i | 0 <= i < |plan[1..]|
        ensures db1(|t + [plan[0]]| + i, plan[1..][i]) == db2(|t + [plan[0]]| + i, plan[1..][i])
      {
        assert plan[1..][i] == plan[i + 1];
        assert |t + [plan[0]]| + i == |t| + (i + 1);
      }
      RunPlanAgree(db1, db2, t + [plan[0]], plan[1..]);
      assert plan == [plan[0]] + plan[1..];
      RunPlanCons(db1, t, plan[0], plan[1..]);
      RunPlanCons(db2, t, plan[0], plan[1..]);
    }
  }

  // ---------------------------------------------------------------------
  // populate_races

  lemma {:induction false} CopyRowsIsPlan(db: Oracle, t: seq<Op>, rows: seq<Race>)
    ensures CopyRows(db, t, rows) == RunPlan(db, t, CopyOps(rows))
    decreases |rows|
  {
    if |rows| > 0 {
      var x := CopyRow(rows[0].name, rows[0].size, rows[0].speed);
      assert CopyOps(rows) == [x] + CopyOps(rows[1..]);
      RunPlanCons(db, t, x, CopyOps(rows[1..]));
      CopyRowsIsPlan(db, t + [x], rows[1..]);
    }
  }

  /** `populate_races` runs the race plan (prepare, one COPY row per race in
      batch order, one flush) up to its first failure and returns that error;
      after a successful flush it closes the statement and returns no error
      whatever the close answered. */
  lemma PopulateRacesIsPlan(db: Oracle, t: seq<Op>, data: seq<Race>)
    ensures PopulateRaces(db, t, data) ==
      (var r := RunPlan(db, t, RacePlan(data));
       if r.err.Some? then r else Run(r.trace + [CloseCopy], None))
  {
    var ops := CopyOps(data);
    assert RacePlan(data) == [PrepareCopy] + (ops + [Flush]);
    RunPlanCons(db, t, PrepareCopy, ops + [Flush]);
    var prepare := Exec(db, t, PrepareCopy);
    if prepare.err.None? {
      RunPlanAppend(db, prepare.trace, ops, [Flush]);
      CopyRowsIsPlan(db, prepare.trace, data);
      var rows := RunPlan(db, prepare.trace, ops);
      if rows.err.None? {
        RunPlanSingle(db, rows.trace, Flush);
      }
    }
  }

  // ---------------------------------------------------------------------
  // populate_languages

  lemma {:induction false} LanguageOccurrencesIsPlan(db: Oracle, t: seq<Op>, race: string, langs: seq<string>)
    ensures LanguageOccurrences(db, t, race, langs) == RunPlan(db, t, PairOps(race, langs))
    decreases |langs|
  {
    if |langs| > 0 {
      var l := langs[0];
      var rest := PairOps(race, langs[1..]);
      assert !MapGet(SeenLang, l);
      assert PairOps(race, langs) == [LangInsert(l)] + ([LinkInsert(race, l)] + rest);
      RunPlanCons(db, t, LangInsert(l), [LinkInsert(race, l)] + rest);
      RunPlanCons(db, t + [LangInsert(l)], LinkInsert(race, l), rest);
      LanguageOccurrencesIsPlan(db, t + [LangInsert(l)] + [LinkInsert(race, l)], race, langs[1..]);
    }
  }

  lemma {:induction false} LanguageRowsIsPlan(db: Oracle, t: seq<Op>, rows: seq<Race>)
    ensures LanguageRows(db, t, rows) == RunPlan(db, t, OccurrenceOps(rows))
    decreases |rows|
  {
    if |rows| > 0 {
      var head := PairOps(rows[0].name, rows[0].languages);
      RunPlanAppend(db, t, head, OccurrenceOps(rows[1..]));
      LanguageOccurrencesIsPlan(db, t, rows[0].name, rows[0].languages);
      var r := RunPlan(db, t, head);
      if r.err.None? {
        LanguageRowsIsPlan(db, r.trace, rows[1..]);
      }
    }
  }

  /** `populate_languages` runs the language plan up to its first failure and
      returns that error. */
  lemma PopulateLanguagesIsPlan(db: Oracle, t: seq<Op>, data: seq<Race>)
    ensures PopulateLanguages(db, t, data) == RunPlan(db, t, LanguagePlan(data))
  {
    var occ := OccurrenceOps(data);
    assert LanguagePlan(data) == [PrepareLang] + ([PrepareLink] + (occ + ([CloseLang] + [CloseLink])));
    RunPlanCons(db, t, PrepareLang, [PrepareLink] + (occ + ([CloseLang] + [CloseLink])));
    var lang := Exec(db, t, PrepareLang);
    if lang.err.None? {
      RunPlanCons(db, lang.trace, PrepareLink, occ + ([CloseLang] + [CloseLink]));
      var link := Exec(db, lang.trace, PrepareLink);
      if link.err.None? {
        RunPlanAppend(db, link.trace, occ, [CloseLang] + [CloseLink]);
        LanguageRowsIsPlan(db, link.trace, data);
        var rows := RunPlan(db, link.trace, occ);
        if rows.err.None? {
          RunPlanCons(db, rows.trace, CloseLang, [CloseLink]);
          var close := Exec(db, rows.trace, CloseLang);
          if close.err.None? {
            RunPlanSingle(db, close.trace, CloseLink);
          }
        }
      }
    }
  }

  /** The statements populate_languages issues are a prefix of its plan: it
      stops at the first failing statement, issues nothing after it, and
      returns that statement's error; it returns no error exactly when every
      statement of the plan succeeds, and then it has issued the whole plan. */
  lemma PopulateLanguagesStops(db: Oracle, t: seq<Op>, data: seq<Race>, r: Run)
    requires r == PopulateLanguages(db, t, data)
    ensures |t| <= |r.trace| <= |t| + |LanguagePlan(data)|
    ensures r.trace == t + LanguagePlan(data)[..|r.trace| - |t|]
    ensures r.err.Some? ==> |t| < |r.trace| && db(|r.trace| - 1, r.trace[|r.trace| - 1]) == Fail(r.err.value)
    ensures r.err.None? <==> Passes(db, |t|, LanguagePlan(data))
    ensures r.err.None? ==> r.trace == t + LanguagePlan(data)
  {
    var plan := LanguagePlan(data);
    PopulateLanguagesIsPlan(db, t, data);
    RunPlanPasses(db, t, plan);
    var p := RunPlan(db, t, plan);
    assert r == p;
    if p.err.Some? {
      assert db(|p.trace| - 1, p.trace[|p.trace| - 1]) == Fail(p.err.value);
    }
  }

  lemma {:induction false} PairOpsLanguages(race: string, langs: seq<string>, l: string)
    ensures LangInsert(l) in PairOps(race, langs) <==> l in langs
    decreases |langs|
  {
    if |langs| > 0 {
      PairOpsLanguages(race, langs[1..], l);
      assert PairOps(race, langs) == [LangInsert(langs[0]), LinkInsert(race, langs[0])] + PairOps(race, langs[1..]);
      assert langs == [langs[0]] + langs[1..];
    }
  }

  /** `ops` holds, for the k-th pair (r, l) of `occ`, the language insert of l
      at position 2k and the link (r, l) at 2k+1, and nothing else. */
  ghost predicate Interleaves(ops: seq<Op>, occ: seq<(string, string)>)
  {
    && |ops| == 2 * |occ|
    && (forall k | 0 <= k < |occ| :: ops[2 * k] == LangInsert(occ[k].1))
    && (forall k | 0 <= k < |occ| :: ops[2 * k + 1] == LinkInsert(occ[k].0, occ[k].1))
  }

  lemma InterleavesAppend(p: seq<Op>, a: seq<(string, string)>, q: seq<Op>, b: seq<(string, string)>)
    requires Interleaves(p, a) && Interleaves(q, b)
    ensures Interleaves(p + q, a + b)
  {
    forall k | |a| <= k < |a + b|
      ensures (p + q)[2 * k] == LangInsert((a + b)[k].1)
      ensures (p + q)[2 * k + 1] == LinkInsert((a + b)[k].0, (a + b)[k].1)
    {
      var m := k - |a|;
      assert (a + b)[k] == b[m];
      assert (p + q)[2 * k] == q[2 * m];
      assert (p + q)[2 * k + 1] == q[2 * m + 1];
    }
  }

  /** The pairs of statements match the occurrences one for one: the k-th
      occurrence (race r, language l) of the batch is the language insert of l
      at position 2k immediately followed by the link (r, l) at 2k+1. So there
      is one link per occurrence, in batch order, duplicates included, and a
      language insert before every link. */
  lemma {:induction false} OccurrenceOpsShape(data: seq<Race>)
    ensures Interleaves(OccurrenceOps(data), Occurrences(data))
    decreases |data|
  {
    if |data| > 0 {
      OccurrenceOpsShape(data[1..]);
      var name, langs := data[0].name, data[0].languages;
      InterleavesAppend(PairOps(name, langs), LanguagePairs(name, langs), OccurrenceOps(data[1..]), Occurrences(data[1..]));
    }
  }

  /** Because `seen_lang` is never set, a language insert is issued for every
      occurrence, not once per distinct name: the count of language inserts,
      like the count of links, is the number of language references in the
      batch. */
  lemma LanguageInsertCount(data: seq<Race>)
    ensures CountLangInserts(OccurrenceOps(data)) == TotalLanguages(data)
    ensures CountLinks(OccurrenceOps(data)) == TotalLanguages(data)
  {
    OccurrencesCounts(data);
  }

  function CountLangInserts(ops: seq<Op>): nat
    decreases |ops|
  {
    if |ops| == 0 then 0 else (if ops[0].LangInsert? then 1 else 0) + CountLangInserts(ops[1..])
  }

  function CountLinks(ops: seq<Op>): nat
    decreases |ops|
  {
    if |ops| == 0 then 0 else (if ops[0].LinkInsert? then 1 else 0) + CountLinks(ops[1..])
  }

  lemma {:induction false} CountAppend(a: seq<Op>, b: seq<Op>)
    ensures CountLangInserts(a + b) == CountLangInserts(a) + CountLangInserts(b)
    ensures CountLinks(a + b) == CountLinks(a) + CountLinks(b)
    decreases |a|
  {
    if |a| == 0 {
      assert a + b == b;
    } else {
      assert (a + b)[1..] == a[1..] + b;
      CountAppend(a[1..], b);
    }
  }

  lemma {:induction false} PairOpsCounts(race: string, langs: seq<string>)
    ensures CountLangInserts(PairOps(race, langs)) == |langs|
    ensures CountLinks(PairOps(race, langs)) == |langs|
    decreases |langs|
  {
    if |langs| > 0 {
      var pair := [LangInsert(langs[0]), LinkInsert(race, langs[0])];
      assert PairOps(race, langs) == pair + PairOps(race, langs[1..]);
      CountAppend(pair, PairOps(race, langs[1..]));
      PairOpsCounts(race, langs[1..]);
    }
  }

  lemma {:induction false} OccurrencesCounts(data: seq<Race>)
    ensures CountLangInserts(OccurrenceOps(data)) == TotalLanguages(data)
    ensures CountLinks(OccurrenceOps(data)) == TotalLanguages(data)
    decreases |data|
  {
    if |data| > 0 {
      CountAppend(PairOps(data[0].name, data[0].languages), OccurrenceOps(data[1..]));
      PairOpsCounts(data[0].name, data[0].languages);
      OccurrencesCounts(data[1..]);
    }
  }

  /** The languages inserted are exactly the languages the batch names. The
      name `seen_lang` and its guard suggest one insert per distinct language;
      as written the same set is reached by one insert per occurrence. */
  lemma {:induction false} LanguageInsertsCoverBatch(data: seq<Race>, l: string)
    ensures LangInsert(l) in OccurrenceOps(data) <==> exists i | 0 <= i < |data| :: l in data[i].languages
    decreases |data|
  {
    if |data| > 0 {
      PairOpsLanguages(data[0].name, data[0].languages, l);
      LanguageInsertsCoverBatch(data[1..], l);
      if exists i | 0 <= i < |data[1..]| :: l in data[1..][i].languages {
        var i :| 0 <= i < |data[1..]| && l in data[1..][i].languages;
        assert l in data[i + 1].languages;
      }
      if exists i | 0 <= i < |data| :: l in data[i].languages {
        var i :| 0 <= i < |data| && l in data[i].languages;
        if i > 0 {
          assert data[1..][i - 1] == data[i];
        }
      }
    }
  }

  // ---------------------------------------------------------------------
  // write_data

  lemma {:induction false} CopyOpsKinds(data: seq<Race>)
    ensures forall i | 0 <= i < |CopyOps(data)| :: CopyOps(data)[i].CopyRow?
  {
  }

  lemma {:induction false} PairOpsKinds(race: string, langs: seq<string>)
    ensures forall i | 0 <= i < |PairOps(race, langs)| :: PairOps(race, langs)[i].LangInsert? || PairOps(race, langs)[i].LinkInsert?
    decreases |langs|
  {
    if |langs| > 0 {
      PairOpsKinds(race, langs[1..]);
      assert PairOps(race, langs) == [LangInsert(langs[0]), LinkInsert(race, langs[0])] + PairOps(race, langs[1..]);
    }
  }

  lemma {:induction false} OccurrenceOpsKinds(data: seq<Race>)
    ensures forall i | 0 <= i < |OccurrenceOps(data)| :: OccurrenceOps(data)[i].LangInsert? || OccurrenceOps(data)[i].LinkInsert?
    decreases |data|
  {
    if |data| > 0 {
      PairOpsKinds(data[0].name, data[0].languages);
      OccurrenceOpsKinds(data[1..]);
    }
  }

  /** Neither phase plan holds a transaction statement or the close of the
      COPY, and the race plan holds no language-phase statement. */
  lemma PhasePlanKinds(data: seq<Race>)
    ensures forall op | op in RacePlan(data) :: !IsLanguagePhase(op) && !IsSwallowed(op) && op != Begin
    ensures forall op | op in LanguagePlan(data) :: !IsSwallowed(op) && op != Begin
  {
    CopyOpsKinds(data);
    OccurrenceOpsKinds(data);
    var rp := RacePlan(data);
    forall op | op in rp
      ensures op == PrepareCopy || op == Flush || op.CopyRow?
    {
      var i :| 0 <= i < |rp| && rp[i] == op;
      if 0 < i < |rp| - 1 {
        assert rp[i] == CopyOps(data)[i - 1];
      }
    }
    var lp := LanguagePlan(data);
    var occ := OccurrenceOps(data);
    forall op | op in lp
      ensures op in {PrepareLang, PrepareLink, CloseLang, CloseLink} || op.LangInsert? || op.LinkInsert?
    {
      var i :| 0 <= i < |lp| && lp[i] == op;
      if 2 <= i < |lp| - 2 {
        assert lp[i] == occ[i - 2];
      }
    }
  }

  /** The statements whose answers `write_data` only logs. */
  predicate IsSwallowed(op: Op)
  {
    op == CloseCopy || op == Rollback || op == Commit
  }

  /** `write_data` in terms of the two phase plans. */
  lemma WriteDataIsPlan(db: Oracle, data: seq<Race>)
    ensures WriteData(db, data) ==
      if db(0, Begin).Fail? then Run([Begin], Some(db(0, Begin).error))
      else
        var races := RunPlan(db, [Begin], RacePlan(data));
        if races.err.Some? then Run(races.trace + [Rollback], races.err)
        else
          var langs := RunPlan(db, races.trace + [CloseCopy], LanguagePlan(data));
          if langs.err.Some? then Run(langs.trace + [Rollback], langs.err)
          else Run(langs.trace + [Commit], None)
  {
    assert [] + [Begin] == [Begin];
    PopulateRacesIsPlan(db, [Begin], data);
    var races := RunPlan(db, [Begin], RacePlan(data));
    if races.err.None? {
      PopulateLanguagesIsPlan(db, races.trace + [CloseCopy], data);
    }
  }

  /** `write_data` returns no error exactly when Begin and every statement of
      both phases succeed — whatever the close of the COPY and the commit
      answer — and it has then issued the whole synchronisation plan, ending
      with the commit. */
  lemma WriteDataSucceeds(db: Oracle, data: seq<Race>, r: Run)
    requires r == WriteData(db, data)
    ensures r.err.None? <==>
      db(0, Begin).Pass? && Passes(db, 1, RacePlan(data)) && Passes(db, |RacePlan(data)| + 2, LanguagePlan(data))
    ensures r.err.None? ==> r.trace == SyncPlan(data)
  {
    WriteDataIsPlan(db, data);
    if db(0, Begin).Pass? {
      RunPlanPasses(db, [Begin], RacePlan(data));
      var races := RunPlan(db, [Begin], RacePlan(data));
      if races.err.None? {
        RunPlanPasses(db, races.trace + [CloseCopy], LanguagePlan(data));
      }
    }
  }

  /** Every statement of a run comes from the prefix or from the plan. */
  lemma RunPlanDrawsFrom(db: Oracle, t: seq<Op>, plan: seq<Op>)
    ensures forall op | op in RunPlan(db, t, plan).trace :: op in t || op in plan
  {
    var r := RunPlan(db, t, plan);
    assert r.trace == t + plan[..|r.trace| - |t|];
  }

  /** A statement absent from the prefix and from the plan is never issued. */
  lemma RunPlanAvoids(db: Oracle, t: seq<Op>, plan: seq<Op>, op: Op)
    requires op !in t && op !in plan
    ensures op !in RunPlan(db, t, plan).trace
  {
    RunPlanDrawsFrom(db, t, plan);
  }

  lemma PrefixThrough(a: seq<Op>, b: seq<Op>, c: seq<Op>, k: nat)
    requires k <= |b|
    ensures |a| + k <= |a + b + c|
    ensures a + b[..k] == (a + b + c)[..|a| + k]
  {
  }

  /** Neither phase plan commits or rolls back. */
  lemma PhasePlansNoEnd(data: seq<Race>)
    ensures Commit !in RacePlan(data) && Rollback !in RacePlan(data)
    ensures Commit !in LanguagePlan(data) && Rollback !in LanguagePlan(data)
  {
    PhasePlanKinds(data);
  }

  /** A phase that failed and was rolled back, issued after `start` inside a
      longer plan `start + plan + rest`: what it issued before the rollback is a
      prefix of that longer plan ending in the failed statement, and holds
      neither a commit nor a rollback. */
  lemma AbortedPrefix(db: Oracle, start: seq<Op>, plan: seq<Op>, rest: seq<Op>, r: Run)
    requires Commit !in start && Rollback !in start && Commit !in plan && Rollback !in plan
    requires RunPlan(db, start, plan).err.Some?
    requires r == Run(RunPlan(db, start, plan).trace + [Rollback], RunPlan(db, start, plan).err)
    ensures |start| + 2 <= |r.trace| <= |start + plan + rest| + 1
    ensures r.err.Some? && Commit !in r.trace
    ensures r.trace[|r.trace| - 1] == Rollback && Rollback !in r.trace[..|r.trace| - 1]
    ensures r.trace[..|r.trace| - 1] == (start + plan + rest)[..|r.trace| - 1]
    ensures db(|r.trace| - 2, r.trace[|r.trace| - 2]) == Fail(r.err.value)
  {
    var phase := RunPlan(db, start, plan);
    RunPlanAvoids(db, start, plan, Commit);
    RunPlanAvoids(db, start, plan, Rollback);
    PrefixThrough(start, plan, rest, |phase.trace| - |start|);
    var last := |phase.trace| - 1;
    assert r.trace[..|r.trace| - 1] == phase.trace;
    assert r.trace[last] == phase.trace[last] && |r.trace| - 2 == last;
    assert db(last, phase.trace[last]) == Fail(phase.err.value);
  }

  /** On failure `write_data` never commits. If Begin failed it did nothing
      else. Otherwise it issued a prefix of the synchronisation plan whose last
      statement failed, then exactly one rollback, and it returns the failed
      statement's error, not the rollback's. */
  lemma WriteDataFails(db: Oracle, data: seq<Race>, r: Run)
    requires r == WriteData(db, data)
    requires r.err.Some?
    ensures |r.trace| >= 1 && r.trace[0] == Begin
    ensures Commit !in r.trace
    ensures |r.trace| == 1 <==> db(0, Begin).Fail?
    ensures |r.trace| == 1 ==> db(0, Begin) == Fail(r.err.value)
    ensures |r.trace| > 1 ==>
      && r.trace[|r.trace| - 1] == Rollback
      && Rollback !in r.trace[..|r.trace| - 1]
      && |r.trace| - 1 <= |SyncPlan(data)|
      && r.trace[..|r.trace| - 1] == SyncPlan(data)[..|r.trace| - 1]
      && db(|r.trace| - 2, r.trace[|r.trace| - 2]) == Fail(r.err.value)
  {
    WriteDataIsPlan(db, data);
    PhasePlansNoEnd(data);
    var rp, lp := RacePlan(data), LanguagePlan(data);
    if db(0, Begin).Pass? {
      var races := RunPlan(db, [Begin], rp);
      if races.err.Some? {
        assert SyncPlan(data) == [Begin] + rp + ([CloseCopy] + lp + [Commit]);
        AbortedPrefix(db, [Begin], rp, [CloseCopy] + lp + [Commit], r);
      } else {
        var start := races.trace + [CloseCopy];
        assert start == [Begin] + rp + [CloseCopy];
        assert SyncPlan(data) == start + lp + [Commit];
        AbortedPrefix(db, start, lp, [Commit], r);
      }
    }
  }

  /** A failure in populate_races means populate_languages never runs: the
      trace holds no language-phase statement, ends in the rollback, and the
      error returned is the failed race-phase statement's. */
  lemma RaceAbortTrace(db: Oracle, data: seq<Race>, r: Run)
    requires RunPlan(db, [Begin], RacePlan(data)).err.Some?
    requires r.trace == RunPlan(db, [Begin], RacePlan(data)).trace + [Rollback]
    ensures forall i | 0 <= i < |r.trace| :: !IsLanguagePhase(r.trace[i])
    ensures |r.trace| >= 3 && r.trace[|r.trace| - 2] in RacePlan(data)
  {
    var rp := RacePlan(data);
    PhasePlanKinds(data);
    RunPlanDrawsFrom(db, [Begin], rp);
    var races := RunPlan(db, [Begin], rp);
    forall i | 0 <= i < |r.trace|
      ensures !IsLanguagePhase(r.trace[i])
    {
      if i < |races.trace| {
        assert r.trace[i] in races.trace;
      }
    }
    var n := |races.trace| - 1;
    assert r.trace[n] == races.trace[n] == rp[n - 1];
  }

  lemma WriteDataRacePhaseFailure(db: Oracle, data: seq<Race>, r: Run)
    requires r == WriteData(db, data)
    requires db(0, Begin).Pass? && !Passes(db, 1, RacePlan(data))
    ensures r.err.Some?
    ensures forall i | 0 <= i < |r.trace| :: !IsLanguagePhase(r.trace[i])
    ensures |r.trace| >= 3 && r.trace[|r.trace| - 1] == Rollback
    ensures r.trace[|r.trace| - 2] in RacePlan(data)
    ensures db(|r.trace| - 2, r.trace[|r.trace| - 2]) == Fail(r.err.value)
  {
    var rp := RacePlan(data);
    WriteDataIsPlan(db, data);
    PhasePlansNoEnd(data);
    RunPlanPasses(db, [Begin], rp);
    AbortedPrefix(db, [Begin], rp, [CloseCopy] + LanguagePlan(data) + [Commit], r);
    RaceAbortTrace(db, data, r);
  }

  /** The answers to the close of the COPY, to the rollback and to the commit
      never change what `write_data` does or returns. */
  lemma WriteDataIgnoresSwallowed(db1: Oracle, db2: Oracle, data: seq<Race>)
    requires forall i: nat, op: Op :: !IsSwallowed(op) ==> db1(i, op) == db2(i, op)
    ensures WriteData(db1, data) == WriteData(db2, data)
  {
    WriteDataIsPlan(db1, data);
    WriteDataIsPlan(db2, data);
    PhasePlanKinds(data);
    assert db1(0, Begin) == db2(0, Begin);
    RunPlanAgree(db1, db2, [Begin], RacePlan(data));
    var races := RunPlan(db1, [Begin], RacePlan(data));
    RunPlanAgree(db1, db2, races.trace + [CloseCopy], LanguagePlan(data));
  }

  // ---------------------------------------------------------------------
  // write_race

  lemma {:induction false} RaceLanguagesIsPlan(db: Oracle, t: seq<Op>, langs: seq<string>, id: int)
    ensures RaceLanguages(db, t, langs, id) == RunPlan(db, t, RaceLangOps(langs, id))
    decreases |langs|
  {
    if |langs| > 0 {
      var x := RaceLangInsert(langs[0], id);
      assert RaceLangOps(langs, id) == [x] + RaceLangOps(langs[1..], id);
      RunPlanCons(db, t, x, RaceLangOps(langs[1..], id));
      RaceLanguagesIsPlan(db, t + [x], langs[1..], id);
    }
  }

  /** The `write_race` result for a run of its plan. */
  function Settle(r: Run, id: int): RaceWrite
  {
    if r.err.None? then RaceWrite(id, None, r.trace)
    else if |r.trace| == 1 then RaceWrite(0, r.err, r.trace)
    else RaceWrite(0, r.err, r.trace + [Rollback])
  }

  /** After Begin, `write_race` runs the rest of its plan up to the first failure. */
  lemma RaceStatementsIsPlan(db: Oracle, t: seq<Op>, id: int, race: Race)
    ensures RaceStatements(db, t, id, race) == RunPlan(db, t, RaceStatementsPlan(race, id))
  {
    var ins := InsertRace(race.name, race.size, race.speed);
    var ops := RaceLangOps(race.languages, id);
    var tail := [CloseRaceLang] + [Commit];
    assert RaceStatementsPlan(race, id) == [ins] + ([PrepareRaceLang] + (ops + tail));
    RunPlanCons(db, t, ins, [PrepareRaceLang] + (ops + tail));
    var insert := Exec(db, t, ins);
    if insert.err.None? {
      RunPlanCons(db, insert.trace, PrepareRaceLang, ops + tail);
      var prepare := Exec(db, insert.trace, PrepareRaceLang);
      if prepare.err.None? {
        RunPlanAppend(db, prepare.trace, ops, tail);
        RaceLanguagesIsPlan(db, prepare.trace, race.languages, id);
        var written := RunPlan(db, prepare.trace, ops);
        if written.err.None? {
          RunPlanCons(db, written.trace, CloseRaceLang, [Commit]);
          var close := Exec(db, written.trace, CloseRaceLang);
          if close.err.None? {
            RunPlanSingle(db, close.trace, Commit);
          }
        }
      }
    }
  }

  /** `write_race` runs its plan up to the first failure; on failure after
      Begin it adds one rollback. */
  lemma WriteRaceIsPlan(db: Oracle, newId: int, race: Race)
    ensures WriteRace(db, newId, race) == Settle(RunPlan(db, [], WriteRacePlan(race, newId)), newId)
  {
    var rest := RaceStatementsPlan(race, newId);
    RunPlanCons(db, [], Begin, rest);
    var begin := Exec(db, [], Begin);
    if begin.err.None? {
      RaceStatementsIsPlan(db, begin.trace, newId, race);
    }
  }

  /** `write_race` returns the id the insert produced and no error exactly
      when every statement of its plan succeeds, and has then written one
      language statement per language, in order. On any failure it returns
      id 0 with the failed statement's error; after a failed Begin nothing
      else is issued, and after any later failure exactly one rollback. */
  lemma WriteRaceResult(db: Oracle, newId: int, race: Race, w: RaceWrite)
    requires w == WriteRace(db, newId, race)
    ensures w.err.None? <==> Passes(db, 0, WriteRacePlan(race, newId))
    ensures w.err.None? ==> w.id == newId && w.trace == WriteRacePlan(race, newId)
    ensures w.err.Some? ==> w.id == 0 && |w.trace| >= 1 && w.trace[0] == Begin
    ensures w.err.Some? && |w.trace| == 1 ==> db(0, Begin) == Fail(w.err.value)
    ensures w.err.Some? && |w.trace| > 1 ==>
      && w.trace[|w.trace| - 1] == Rollback
      && Rollback !in w.trace[..|w.trace| - 1]
      && db(|w.trace| - 2, w.trace[|w.trace| - 2]) == Fail(w.err.value)
  {
    WriteRaceIsPlan(db, newId, race);
    RunPlanPasses(db, [], WriteRacePlan(race, newId));
    var plan := WriteRacePlan(race, newId);
    var r := RunPlan(db, [], plan);
    if r.err.Some? && |r.trace| > 1 {
      WriteRacePlanNoRollback(race, newId);
      RunPlanAvoids(db, [], plan, Rollback);
      assert w.trace[..|w.trace| - 1] == r.trace;
    }
  }

  /** `write_race`'s own plan never rolls back. */
  lemma WriteRacePlanNoRollback(race: Race, id: int)
    ensures Rollback !in WriteRacePlan(race, id)
  {
    var langs := RaceLangOps(race.languages, id);
    forall op | op in langs
      ensures op != Rollback
    {
      var i :| 0 <= i < |langs| && langs[i] == op;
    }
    assert WriteRacePlan(race, id) ==
      [Begin, InsertRace(race.name, race.size, race.speed), PrepareRaceLang] + langs + [CloseRaceLang, Commit];
  }
}

=== FILE: sync.dfy ===
/** `populate_from_api` of services/races/main.go: fetch, convert, write. Its
    log lines are left out; the model returns the write's run, or `None` when
    the write was never attempted. */
module Sync {
  import opened Results
  import opened Client
  import opened Store

  /** `populate_from_api`, given the API's response and the store. */
  function PopulateFromApi(response: Result<seq<RaceData>>, db: Oracle): (r: Option<Run>)
    ensures r.Some? <==> response.Ok?
  {
    match CollectFromApi(response)
    case Err(_) => None
    case Ok(data) => Some(WriteData(db, data))
  }

  /** The write is attempted only when the API call succeeded, and then on
      exactly the converted records, in response order. */
  lemma PopulateFromApiWrites(response: Result<seq<RaceData>>, db: Oracle)
    requires response.Ok?
    ensures var data := CollectFromApi(response).value;
      && |data| == |response.value|
      && (forall i | 0 <= i < |data| :: data[i] == Convert(response.value[i]))
      && PopulateFromApi(response, db) == Some(WriteData(db, data))
  {
  }
}

=== FILE: text.dfy ===
/** The pieces of Go's standard library the service relies on for text:
    `strconv.Itoa`, `strconv.Atoi`, `strings.Join`, `strings.Split` with a
    one-character separator, and `fmt.Sprintf` restricted to the `%s` and `%d`
    verbs. Each is paired with its inverse or with a closed form. */
module Text {
  import opened Results

  /** The range of Go's `int` on a 64-bit platform. */
  const MinInt64: int := -0x8000_0000_0000_0000
  const MaxInt64: int := 0x7FFF_FFFF_FFFF_FFFF

  predicate IsDigit(c: char) {
    '0' <= c <= '9'
  }

  predicate AllDigits(s: string) {
    forall i | 0 <= i < |s| :: IsDigit(s[i])
  }

  function DigitChar(d: nat): (c: char)
    requires d < 10
    ensures IsDigit(c)
  {
    (('0' as int) + d) as char
  }

  function DigitValue(c: char): (d: nat)
    requires IsDigit(c)
    ensures d < 10
    ensures DigitChar(d) == c
  {
    (c as int) - ('0' as int)
  }

  /** Decimal digits of `n`, most significant first, without leading zeros. */
  function Digits(n: nat): (s: string)
    ensures |s| >= 1
    ensures AllDigits(s)
    ensures s[0] == '0' ==> n == 0
    decreases n
  {
    if n < 10 then [DigitChar(n)] else Digits(n / 10) + [DigitChar(n % 10)]
  }

  /** `strconv.Itoa`: decimal form, with a leading '-' for negative numbers. */
  function Itoa(n: int): (s: string)
    ensures |s| >= 1
    ensures forall i | 0 <= i < |s| :: s[i] == '-' || IsDigit(s[i])
    ensures s[0] == '-' <==> n < 0
    ensures n < 0 ==> |s| >= 2 && IsDigit(s[1]) && s[1] != '0' && AllDigits(s[1..])
    ensures s[0] == '0' ==> s == "0"
  {
    if n < 0 then "-" + Digits(-n) else Digits(n)
  }

  /** Value of a digit string, accumulated left to right as `n*10 + d`. */
  function DigitsValue(s: string): nat
    requires AllDigits(s)
    decreases |s|
  {
    if |s| == 0 then 0 else DigitsValue(s[..|s| - 1]) * 10 + DigitValue(s[|s| - 1])
  }

  /** `strconv.Atoi` on a 64-bit platform: an optional sign, then at least one
      decimal digit, and a value that fits in an `int`. Any other string is an
      error, modelled as `None`. */
  function Atoi(s: string): (r: Option<int>)
    ensures r.Some? ==> MinInt64 <= r.value <= MaxInt64
    ensures r.Some? ==> |s| >= 1 && (s[0] == '+' || s[0] == '-' || IsDigit(s[0]))
  {
    if |s| == 0 then None
    else
      var body := if s[0] == '+' || s[0] == '-' then s[1..] else s;
      if |body| == 0 || !AllDigits(body) then None
      else
        var v: int := if s[0] == '-' then -(DigitsValue(body) as int) else DigitsValue(body);
        if MinInt64 <= v <= MaxInt64 then Some(v) else None
  }

  lemma {:induction false} DigitsValueOfDigits(n: nat)
    ensures DigitsValue(Digits(n)) == n
    decreases n
  {
    var s := Digits(n);
    if n >= 10 {
      assert s[..|s| - 1] == Digits(n / 10);
      DigitsValueOfDigits(n / 10);
    }
  }

  /** Atoi reads back what Itoa writes, for every `int`. */
  lemma AtoiItoa(n: int)
    requires MinInt64 <= n <= MaxInt64
    ensures Atoi(Itoa(n)) == Some(n)
  {
    var s := Itoa(n);
    if n < 0 {
      assert s[1..] == Digits(-n);
      DigitsValueOfDigits(-n);
    } else {
      DigitsValueOfDigits(n);
    }
  }

  /** Non-canonical decimal text parses too: leading zeros, a '+' sign and
      "-0" are accepted, and the value is that of the digits, negated after
      '-', whenever it fits in an int64. */
  lemma AtoiDigits(d: string)
    requires |d| >= 1 && AllDigits(d)
    ensures Atoi(d) == (if DigitsValue(d) <= MaxInt64 then Some(DigitsValue(d) as int) else None)
    ensures Atoi("+" + d) == Atoi(d)
    ensures Atoi("-" + d) == (if MinInt64 <= -(DigitsValue(d) as int) then Some(-(DigitsValue(d) as int)) else None)
  {
    assert !(d[0] == '+' || d[0] == '-') by {
      assert IsDigit(d[0]);
    }
    assert ("+" + d)[0] == '+' && ("+" + d)[1..] == d;
    assert ("-" + d)[0] == '-' && ("-" + d)[1..] == d;
  }

  /** Text with a non-digit after the optional sign is rejected. */
  lemma AtoiRejects(s: string, i: int)
    requires 0 <= i < |s| && !IsDigit(s[i])
    requires i > 0 || (s[0] != '+' && s[0] != '-')
    ensures Atoi(s) == None
  {
    if |s| > 0 && (s[0] == '+' || s[0] == '-') {
      assert s[1..][i - 1] == s[i];
    }
  }

  /** Text with no digit at all, the empty string or a lone sign, is rejected. */
  lemma AtoiBlank()
    ensures Atoi("") == None && Atoi("+") == None && Atoi("-") == None
  {
    assert "+"[1..] == "" && "-"[1..] == "";
  }

  /** `strings.Join`: the elements with `sep` between neighbours. */
  function Join(xs: seq<string>, sep: string): (r: string)
    decreases |xs|
  {
    if |xs| == 0 then "" else if |xs| == 1 then xs[0] else xs[0] + sep + Join(xs[1..], sep)
  }

  /** `strings.Split(s, string(sep))`: the maximal separator-free pieces of `s`;
      there is always one more piece than there are separators. */
  function Split(s: string, sep: char): (parts: seq<string>)
    ensures |parts| >= 1
    ensures forall i | 0 <= i < |parts| :: sep !in parts[i]
    decreases |s|
  {
    if |s| == 0 then [""]
    else
      var rest := Split(s[1..], sep);
      if s[0] == sep then [""] + rest else [[s[0]] + rest[0]] + rest[1..]
  }

  /** Joining the pieces of a split with the same separator gives the input back. */
  lemma {:induction false} JoinSplit(s: string, sep: char)
    ensures Join(Split(s, sep), [sep]) == s
    decreases |s|
  {
    if |s| > 0 {
      var rest := Split(s[1..], sep);
      JoinSplit(s[1..], sep);
      var parts := Split(s, sep);
      if s[0] == sep {
        assert parts[1..] == rest;
        assert s == [sep] + s[1..];
      } else if |rest| == 1 {
        assert s == [s[0]] + s[1..];
      } else {
        assert parts[1..] == rest[1..];
        assert s == [s[0]] + s[1..];
      }
    }
  }

  lemma {:induction false} SplitWithoutSeparator(a: string, sep: char)
    requires sep !in a
    ensures Split(a, sep) == [a]
    decreases |a|
  {
    if |a| > 0 {
      assert sep !in a[1..];
      SplitWithoutSeparator(a[1..], sep);
      assert [a[0]] + a[1..] == a;
    }
  }

  lemma {:induction false} SplitAtSeparator(a: string, sep: char, b: string)
    requires sep !in a
    ensures Split(a + [sep] + b, sep) == [a] + Split(b, sep)
    decreases |a|
  {
    var s := a + [sep] + b;
    if |a| == 0 {
      assert s[1..] == b;
    } else {
      assert s[1..] == a[1..] + [sep] + b;
      assert sep !in a[1..];
      SplitAtSeparator(a[1..], sep, b);
      assert [a[0]] + a[1..] == a;
    }
  }

  /** Splitting a join gives the pieces back when no piece holds the separator. */
  lemma {:induction false} SplitJoin(xs: seq<string>, sep: char)
    requires |xs| >= 1
    requires forall i | 0 <= i < |xs| :: sep !in xs[i]
    ensures Split(Join(xs, [sep]), sep) == xs
    decreases |xs|
  {
    if |xs| == 1 {
      SplitWithoutSeparator(xs[0], sep);
    } else {
      SplitJoin(xs[1..], sep);
      SplitAtSeparator(xs[0], sep, Join(xs[1..], [sep]));
      assert [xs[0]] + xs[1..] == xs;
    }
  }

  /** An argument of `fmt.Sprintf`. */
  datatype Arg = Str(s: string) | Int(i: int)

  /** What a verb renders for an argument: `%s` of a string, `%d` of an int. */
  function Verb(v: char, a: Arg): Option<string>
  {
    match a
    case Str(s) => if v == 's' then Some(s) else None
    case Int(i) => if v == 'd' then Some(Itoa(i)) else None
  }

  /** `fmt.Sprintf` for the `%s` and `%d` verbs with matching arguments; any
      other character is copied through. */
  function Format(f: string, args: seq<Arg>): string
    decreases |f|
  {
    if |f| == 0 then ""
    else if |f| >= 2 && f[0] == '%' && |args| > 0 && Verb(f[1], args[0]).Some? then
      Verb(f[1], args[0]).value + Format(f[2..], args[1..])
    else [f[0]] + Format(f[1..], args)
  }

  /** Text without a '%' is copied verbatim and consumes no argument. */
  lemma {:induction false} FormatLiteral(lit: string, rest: string, args: seq<Arg>)
    requires '%' !in lit
    ensures Format(lit + rest, args) == lit + Format(rest, args)
    decreases |lit|
  {
    if |lit| == 0 {
      assert lit + rest == rest;
    } else {
      var f := lit + rest;
      assert f[0] == lit[0] && lit[0] != '%';
      assert f[1..] == lit[1..] + rest;
      assert '%' !in lit[1..];
      FormatLiteral(lit[1..], rest, args);
      assert [lit[0]] + lit[1..] == lit;
    }
  }

  /** A verb consumes exactly one argument and renders it. */
  lemma FormatVerb(v: char, a: Arg, rest: string, args: seq<Arg>)
    requires Verb(v, a).Some?
    ensures Format(['%', v] + rest, [a] + args) == Verb(v, a).value + Format(rest, args)
  {
    var f := ['%', v] + rest;
    assert f[2..] == rest;
    assert ([a] + args)[1..] == args;
  }
}
